=== FILE: README.md ===
# Odoo–Nextcloud sync add-ons: the small pure rules, in Dafny

This project models the decision logic of the Odoo add-ons that connect Odoo to a
Nextcloud server. The add-ons are `nextcloud_odoo_sync`,
`nextcloud_calendar_instance_per_user` and the `v_nextcloud` test-data wizard.
The model covers these rules:

- **Connection test** (`nextcloud.caldav.check_nextcloud_connection`). Each
  outcome of the DAV client maps to one result: a principal, error record
  1000, error record 1001, or an exception that propagates.
- **Field map** between CalDAV property names and Odoo field names. The model
  includes its inversion, proved to lose nothing.
- **Record translators** `get_caldav_record` (CalDAV to Odoo) and
  `set_caldav_record` (Odoo to CalDAV).
- **Request helpers** of `nextcloud.base`: `get_auth_data` and `get_full_url`,
  plus the per-user overrides of both.
- **Per-user `nc.sync.user`**: URL normalisation and `get_user_connection`.
- **Settings form** `res.config.settings`: `set_values` and `get_values`.
- **ORM overrides**: the `write` override of `calendar.event` and the `create`
  override of `nc.calendar`.
- **Uninstall hook**: it cleans the calendar action's domain.
- **Sync log** (`nc.sync.log`):
  - `get_time_diff`;
  - the user comparison and matching of `check_and_log_users`;
  - the log lines `log_event` writes.
- **Test-data wizard**: the event generator and the result logs.

Python values are modelled by `Values.Value`: `None`, booleans, integers, text
and lists, with Python truthiness. Python dictionaries are
`map<string, Value>`. The `ir.config_parameter` table is a
`map<string, string>` in which `get_param` of a missing key, or of a key
stored as empty text, reads `False`.
Raised exceptions become `Failure` results.

Effects the model cannot see are function parameters:

- the DAV client, `(url, login, password) -> DavOutcome`;
- the iCalendar parser (`jicson.fromText`);
- the date parser (`dateutil.parser.parse`);
- the user's time zone, which zone names pytz knows, and `astimezone` (`get_local_datetime`);
- whether the wizard's DAV client could open its `Personal` calendar;
- `save_event`;
- the users `get_users` returns;
- the rows `search_read` returns;
- the clock.

The main model follows the code as written, including four places where the
code does not do what its messages say. Each of these is listed under
Findings, together with a corrected definition.

## Model

| member | source | states |
|---|---|---|
| Caldav.CheckConnection | nextcloud_odoo_sync/models/nextcloud_caldav.py:34-46 | A principal is returned as is. An authorization failure gives error record 1000 and a PROPFIND or connection failure gives error record 1001, each carrying the exception text. Any other exception propagates. Each of these holds in both directions. |
| Caldav.CaldavFieldsSize | nextcloud_odoo_sync/models/nextcloud_caldav.py:89-100 | The field map has ten distinct CalDAV names. |
| Caldav.FieldMapIsBijection | nextcloud_odoo_sync/models/nextcloud_caldav.py:89-109 | The ten CalDAV names map to ten distinct Odoo fields. The map and its inversion are each other's inverse, the inversion is the only inverse the map has, and the inversion's keys are exactly the Odoo fields the translator iterates. |
| Caldav.OdooFieldsUndoCaldavFields | nextcloud_odoo_sync/models/nextcloud_caldav.py:89-109 | Every CalDAV name survives the round trip through the field map and its inversion. |
| Caldav.CaldavFieldsUndoOdooFields | nextcloud_odoo_sync/models/nextcloud_caldav.py:89-109 | The inversion sends every Odoo field to a CalDAV name that the field map sends back to that field. |
| Caldav.MutualUndoIsInverse | nextcloud_odoo_sync/models/nextcloud_caldav.py:109 | Two maps that undo each other entry by entry are each other's inverse. |
| Caldav.OdooFieldsKeys | nextcloud_odoo_sync/models/nextcloud_caldav.py:109-113 | The inverted map's keys are exactly the Odoo fields the translator iterates. |
| Caldav.InverseOfInverse | nextcloud_odoo_sync/models/nextcloud_caldav.py:109 | A map that has an inverse is one-to-one, and inverting the inverse gives back the original map. |
| Caldav.MapSizeOfInverse | nextcloud_odoo_sync/models/nextcloud_caldav.py:109 | A map and its inverse have the same number of entries, so the inversion drops no pair. |
| Caldav.InverseIsUnique | nextcloud_odoo_sync/models/nextcloud_caldav.py:109 | A map has at most one inverse. |
| Caldav.InvertSwapped | nextcloud_odoo_sync/models/nextcloud_caldav.py:109 | Applying the `{v: k for k, v in items}` comprehension to the swapped items gives the dictionary built from the original items. |
| Caldav.FieldItemsOfCaldavFields | nextcloud_odoo_sync/models/nextcloud_caldav.py:89-100 | The listed `items()` of the field map rebuild the field map itself. |
| Caldav.OdooFieldsTable | nextcloud_odoo_sync/models/nextcloud_caldav.py:109 | The inverted map, written out entry by entry. |
| Caldav.TranslateKeys | nextcloud_odoo_sync/models/nextcloud_caldav.py:75-81 | Only mapped Odoo fields appear, and every property whose lower-cased name is mapped puts its field in the record. |
| Caldav.TranslateWinners | nextcloud_odoo_sync/models/nextcloud_caldav.py:75-81 | Every field in the record comes from some property that maps to it with no later property mapping to the same field. |
| Caldav.TranslateWinnerValue | nextcloud_odoo_sync/models/nextcloud_caldav.py:75-81 | The last property that maps to a field decides that field's value: its parsed form, or its raw text. |
| Caldav.TranslateSpec | nextcloud_odoo_sync/models/nextcloud_caldav.py:75-81 | Only mapped Odoo fields appear. A field appears exactly when some property's lower-cased name maps to it. Its value is the parsed form, or the raw text, of the last such property. |
| Caldav.GetCaldavRecord | nextcloud_odoo_sync/models/nextcloud_caldav.py:62-82 | The record succeeds exactly when there is a first event, a first calendar and a first VEVENT; otherwise it raises. On success it is that VEVENT's translation. |
| Caldav.EmitSpec | nextcloud_odoo_sync/models/nextcloud_caldav.py:111-120 | For any prefix of the fields iterated, a CalDAV name is emitted exactly when its Odoo field is in that prefix, present, truthy and not skipped. The emitted value is time-zone converted for start and stop and copied unchanged otherwise. |
| Caldav.TranslateRecordSpec | nextcloud_odoo_sync/models/nextcloud_caldav.py:108-122 | A CalDAV property is sent exactly when its Odoo field is set, truthy and not `user_id` or `partner_ids`. `dtstart` and `dtend` carry the converted start and stop. No organizer or attendee is ever sent. |
| Caldav.TranslateRecordSent | nextcloud_odoo_sync/models/nextcloud_caldav.py:109-121 | A CalDAV name is emitted exactly when its Odoo field is sent, with that field's outgoing value, and nothing outside the field map is emitted. |
| Caldav.LocalZone | nextcloud_odoo_sync/models/nextcloud_caldav.py:131-133 | The user's zone resolves exactly when `tz` is a non-empty zone name pytz knows. A falsy `tz` hands pytz its `utc` object, which raises, and an unknown name raises too. |
| Caldav.TranslateIgnoresConversion | nextcloud_odoo_sync/models/nextcloud_caldav.py:115-121 | A row that sends neither start nor stop never reaches the conversion: any two conversions translate it alike. |
| Caldav.SetCaldavRecord | nextcloud_odoo_sync/models/nextcloud_caldav.py:102-122 | It raises exactly when the user's zone does not resolve and some row sends a start or stop, carrying the lookup's error. Otherwise it gives one CalDAV dictionary per row, in row order, each the translation of its row through the resolved zone. |
| NextcloudBase.GetAuthData | nextcloud_odoo_sync/models/nextcloud_base.py:15-20 | GET requests carry only the OCS API header. POST requests carry the same header plus the form content type. Authentication uses the connector's username and password. |
| NextcloudBase.WithLeadingSlashShape | nextcloud_odoo_sync/models/nextcloud_base.py:31-32 | The normalised path is empty exactly when the given one is. Otherwise it starts with `/`, adds exactly one `/` to a path that had none, and normalising it again changes nothing. |
| NextcloudBase.GetFullUrl | nextcloud_odoo_sync/models/nextcloud_base.py:22-42 | The URL starts with the hostname, continues with the API path and the normalised path, and ends with `?format=json` exactly when `json_output` is truthy. |
| NextcloudBase.JsonSuffixAppendedOnce | nextcloud_odoo_sync/models/nextcloud_base.py:37-42 | `json_output` makes exactly one difference: the JSON suffix appended once after the whole path. |
| PerUserBase.GetAuthData | nextcloud_calendar_instance_per_user/models/nextcloud_base.py:12-22 | The base headers are kept. The auth pair is the context's login and password when the context has a truthy login; otherwise the result is the base data unchanged. |
| PerUserBase.ServerOf | nextcloud_calendar_instance_per_user/models/nextcloud_base.py:30-32 | The server is the context's `base_url` when truthy, the configured server URL otherwise. |
| PerUserBase.GetFullUrl | nextcloud_calendar_instance_per_user/models/nextcloud_base.py:24-39 | The override always asks for JSON. The URL starts with the chosen server. |
| PerUserBase.FullUrlAgreesWithBase | nextcloud_calendar_instance_per_user/models/nextcloud_base.py:33-38 | Given the base class's host as `base_url`, the override builds exactly the URL that the base class builds for a JSON connector. |
| PerUserBase.FullUrlFallsBackToSettings | nextcloud_calendar_instance_per_user/models/nextcloud_base.py:30-38 | Without a `base_url` the URL starts with the configured server URL. When none is configured, or it is stored empty, it starts with `False`. |
| SyncUser.NormaliseServerUrl | nextcloud_calendar_instance_per_user/models/nc_sync_user.py:22-31 | A truthy text URL is stored stripped of edge slashes. Every other key is untouched. A falsy URL leaves the values as given. A truthy non-text URL raises. |
| SyncUser.NormaliseServerUrlIdempotent | nextcloud_calendar_instance_per_user/models/nc_sync_user.py:24-30 | Normalising already normalised values changes nothing. |
| SyncUser.FirstMissing | nextcloud_calendar_instance_per_user/models/nc_sync_user.py:43-51 | Nothing is reported exactly when every required setting is truthy. Otherwise the reported label is that of the first falsy setting. |
| SyncUser.FirstMissingRequired | nextcloud_calendar_instance_per_user/models/nc_sync_user.py:37-51 | Settings are checked in the order login, password, server URL. |
| SyncUser.UserDavUrl | nextcloud_calendar_instance_per_user/models/nc_sync_user.py:53-56 | The DAV URL is the user's own server URL when set, the configured one otherwise, followed by the WebDAV path. It is only built when one of the two is set; otherwise the source raises, and the required-settings check comes first. |
| SyncUser.GetUserConnection | nextcloud_calendar_instance_per_user/models/nc_sync_user.py:33-63 | It raises naming the first missing setting. Otherwise it tests the DAV URL with the user's credentials: an error record raises `<error name>: <description>`, and success returns the principal. |
| Text.StripSlashes | nextcloud_odoo_sync/models/res_config_settings.py:30 | The stripped URL has no slash at either edge and is no longer than the input. |
| Text.StripSlashesIsSlice | nextcloud_odoo_sync/models/res_config_settings.py:30 | The stripped URL is a slice of the input framed only by slashes. |
| Text.StripPadded | nextcloud_calendar_instance_per_user/models/nc_sync_user.py:25 | Stripping any slash padding around a text with no edge slash gives that text back. |
| Text.StripEmptyIff | nextcloud_odoo_sync/models/res_config_settings.py:30 | Stripping leaves nothing exactly when the URL is slashes only. |
| Text.StripIdempotent | nextcloud_calendar_instance_per_user/models/nc_sync_user.py:30 | Stripping an already stripped URL changes nothing. |
| Text.DecimalRoundTrip | nextcloud_odoo_sync/models/nc_sync_log.py:99 | The decimal text that `%s` writes for a count reads back as that count. |
| ConfigSettings.StatusOf | nextcloud_odoo_sync/models/res_config_settings.py:45-50 | An error record gives `fail` with its description. A principal gives `online` with the error cleared to `False`. Both directions hold. |
| ConfigKeys.KeysDistinct | nextcloud_odoo_sync/models/res_config_settings.py:29-58 | The configuration parameters the settings and the sync log read and write are distinct keys, so writing one leaves the others alone. |
| ConfigSettings.RecordStatus | nextcloud_odoo_sync/models/res_config_settings.py:52-58 | The status reads back as decided. A failure's text is stored as given and reads back as `False` when empty; a principal removes the error. Every other parameter is unchanged. |
| ConfigSettings.SetValues | nextcloud_odoo_sync/models/res_config_settings.py:27-37 | Saving fails exactly when the URL field is not text, or when sync is enabled and the connection test raises. On success the stripped URL is written over the store. With sync disabled nothing else is written; with sync enabled the test's status and error follow. |
| ConfigSettings.SetValuesUrl | nextcloud_odoo_sync/models/res_config_settings.py:29-31 | The stored URL is the stripped text. It reads back as that text, or as `False` when the URL was slashes only and so is stored empty. |
| ConfigSettings.SetValuesStatus | nextcloud_odoo_sync/models/res_config_settings.py:32-58 | With sync disabled, status and error stay as they were. With sync enabled, a principal gives `online` and no error; anything else gives `fail` and stores the failure's text, which reads back as `False` when empty. |
| ConfigSettings.SetValuesKeepsOthers | nextcloud_odoo_sync/models/res_config_settings.py:27-59 | Saving changes only the URL, status and error parameters. |
| ConfigSettings.SettingsRoundTrip | nextcloud_odoo_sync/models/res_config_settings.py:61-75 | Reading back after a save gives the stripped URL, or `False` for a URL of slashes only. It also gives the status and error the connection test decided, an empty error text reading `False`, or the earlier ones when sync is disabled. |
| ConfigSettings.StoredUrlIsNormal | nextcloud_odoo_sync/models/res_config_settings.py:29-31 | A URL read back has no edge slash, and saving it again leaves the same URL to read back. A URL of slashes only reads back as `False`, and saving that again raises. |
| CalendarEvent.Write | nextcloud_odoo_sync/models/calendar_event.py:19-22 | Outside the sync the values gain `nc_synced = False`. In the sync they pass through unchanged. No other key changes. |
| CalendarEvent.OnlySyncMarksSynced | nextcloud_odoo_sync/models/calendar_event.py:19-22 | An event is written as synced only by a write in the sync context whose own values say so. |
| CalendarEvent.WriteIdempotent | nextcloud_odoo_sync/models/calendar_event.py:19-22 | Applying the override to its own output changes nothing more. |
| NcCalendar.Create | nextcloud_odoo_sync/models/nc_calendar.py:16-19 | Outside the sync the owner is the creating user. In the sync the values pass through unchanged. No other key changes. |
| NcCalendar.OtherOwnerOnlyFromSync | nextcloud_odoo_sync/models/nc_calendar.py:16-19 | A calendar gets an owner other than the creating user only through the sync, and then it is the owner the caller gave. |
| UninstallHook.Dedup | nextcloud_odoo_sync/hooks.py:18 | The deduplicated domain has no duplicates, the same members and no more entries. |
| UninstallHook.DedupOfDistinct | nextcloud_odoo_sync/hooks.py:18 | A domain without duplicates is its own deduplication. |
| UninstallHook.Uninstall | nextcloud_odoo_sync/hooks.py:16-19 | The hook raises exactly when the stored domain text is not a literal (with the error `literal_eval` raised), when some element has no first item, or when some kept leaf is unhashable. Otherwise the new domain has no duplicates and holds exactly the elements not about `nc_to_delete`. |
| UninstallHook.UninstallDropsOnlyDeleted | nextcloud_odoo_sync/hooks.py:17 | A leaf of the domain survives exactly when its field is not `nc_to_delete`. |
| UninstallHook.UninstallEmpty | nextcloud_odoo_sync/hooks.py:16 | An empty or unset domain stays empty. |
| UninstallHook.UninstallIdempotent | nextcloud_odoo_sync/hooks.py:16-19 | Running the hook on its own result gives the same domain. |
| Seqs.FilterAll | nextcloud_odoo_sync/hooks.py:17 | A comprehension filter keeps the whole list exactly when every element passes. |
| SyncLog.Delta | nextcloud_odoo_sync/models/nc_sync_log.py:40 | The difference is in timedelta normal form: seconds below a day, microseconds below a second. It stands for exactly the span between the two instants. |
| SyncLog.DeltaUnique | nextcloud_odoo_sync/models/nc_sync_log.py:40 | The normal form is unique, so the model's difference is the timedelta Python builds. |
| SyncLog.GetTimeDiff | nextcloud_odoo_sync/models/nc_sync_log.py:31-44 | Hours are below 24 and minutes and seconds below 60. Together they add up to the difference's seconds component. The current time is used when no end is given. |
| SyncLog.WholeDaysDiscarded | nextcloud_odoo_sync/models/nc_sync_log.py:40-43 | Moving the end by whole days does not change the result. |
| SyncLog.ShortSpanExact | nextcloud_odoo_sync/models/nc_sync_log.py:40-43 | A non-negative span shorter than a day is split exactly into its whole seconds. |
| SyncLog.OneSecondEarly | nextcloud_odoo_sync/models/nc_sync_log.py:40-43 | An end one second before the start reads as 23:59:59. |
| SyncLog.PresentValues | nextcloud_odoo_sync/models/nc_sync_log.py:67 | `[x for x in xs if x]` keeps exactly the set, non-empty texts. |
| SyncLog.NotInNextcloudExact | nextcloud_odoo_sync/models/nc_sync_log.py:53-55 | An Odoo user is "not in Nextcloud" exactly when no Nextcloud id or email equals its user name. The comparison is case-sensitive. |
| SyncLog.UserNames | nextcloud_odoo_sync/models/nc_sync_log.py:57 | One lower-cased user name per Odoo user, in order. |
| SyncLog.NotInOdooSpareMatchedUsers | nextcloud_odoo_sync/models/nc_sync_log.py:57-63 | The corrected "not in Odoo" test never reports a Nextcloud user whose email is an Odoo user name. |
| SyncLog.NotInOdooIff | nextcloud_odoo_sync/models/nc_sync_log.py:57-63 | The corrected test reports a user exactly when neither its set email nor its set display name is an Odoo user name. |
| SyncLog.ReportedNotInOdooCounterexample | nextcloud_odoo_sync/models/nc_sync_log.py:57-63 | As written, a Nextcloud user whose email is an Odoo user name is still reported "not in Odoo". |
| SyncLog.ReportedAgreesWhenEmailUnmatched | nextcloud_odoo_sync/models/nc_sync_log.py:58-61 | For a user with a set, unmatched email, the written test and the corrected one agree, except that the written one needs a display name. |
| SyncLog.MatchesIff | nextcloud_odoo_sync/models/nc_sync_log.py:85-90 | An Odoo user matches a Nextcloud user exactly when its lower-cased user name equals the set email or the non-empty id, ignoring case. |
| SyncLog.LinksMembership | nextcloud_odoo_sync/models/nc_sync_log.py:83-92 | A `nextcloud_user_id` write is recorded exactly for a listed Odoo user and the id of a Nextcloud user it matches. |
| SyncLog.MatchUsers | nextcloud_odoo_sync/models/nc_sync_log.py:83-92 | The nested loop records matches with Odoo users outer and Nextcloud users inner, one per matching pair. |
| SyncLog.OdooNamesNotInNextcloud | nextcloud_odoo_sync/models/nc_sync_log.py:66-67 | The listed names are exactly the set names of Odoo users missing in Nextcloud. |
| SyncLog.NcNamesNotInOdoo | nextcloud_odoo_sync/models/nc_sync_log.py:75-76 | The listed names are exactly the set display names of the reported Nextcloud users. |
| SyncLog.OdooComparison | nextcloud_odoo_sync/models/nc_sync_log.py:66-73 | At most one line, logged exactly when some Odoo user is missing in Nextcloud. The line lists those users' names. |
| SyncLog.NcComparison | nextcloud_odoo_sync/models/nc_sync_log.py:75-82 | At most one line, logged exactly when some Nextcloud user is reported. The line lists their display names. |
| SyncLog.CheckUsers | nextcloud_odoo_sync/models/nc_sync_log.py:46-102 | It raises exactly when some Odoo user has no user name. Otherwise the lines are, in order, the two comparison lines and the count of matched users, and the matched users are those of the recorded links. |
| SyncLog.CheckAndLogUsers | nextcloud_odoo_sync/models/nc_sync_log.py:46-102 | `check_and_log_users` with its "not in Odoo" test as written. |
| SyncLog.UsersToSyncCount | nextcloud_odoo_sync/models/nc_sync_log.py:94-100 | The last line's digits read back as the number of matched users. |
| SyncLog.CheckAndLogUsersFixed | nextcloud_odoo_sync/models/nc_sync_log.py:46-102 | `check_and_log_users` with the "not in Odoo" test that its message describes. |
| SyncLog.FixedCheckSparesMatchedUsers | nextcloud_odoo_sync/models/nc_sync_log.py:57-82 | With the fix, when every Nextcloud user is matched by email, no "not in Odoo" line is logged. |
| SyncLog.CheckAndLogUsersCounterexample | nextcloud_odoo_sync/models/nc_sync_log.py:57-82 | On one input where every Nextcloud user is matched by email, the written code logs a "not in Odoo" line and the fixed code does not. |
| SyncLog.ConnectionLine | nextcloud_odoo_sync/models/nc_sync_log.py:135-146 | The line is a `login` line carrying the URL and username with the password masked. It says OK, with no error code, exactly when the test returned a principal. |
| SyncLog.ConnectionTest | nextcloud_odoo_sync/models/nc_sync_log.py:135-146 | The test runs exactly when calendar sync is enabled. It raises exactly when it runs and the DAV client raises something other than an authorization, PROPFIND or connection error. Otherwise it yields the classified outcome. |
| SyncLog.Opening | nextcloud_odoo_sync/models/nc_sync_log.py:124-146 | A `pre_sync` log opens with the start line, followed by the connection line exactly when the test ran. |
| SyncLog.PreSyncFixed | nextcloud_odoo_sync/models/nc_sync_log.py:122-150 | The corrected branch. The `connecting` log is created for the DAV URL. `resume` is false exactly when the test returned an error record. Users are compared, and can raise, only while `resume` holds; otherwise no users are matched and only the opening lines are logged. |
| SyncLog.PreSync | nextcloud_odoo_sync/models/nc_sync_log.py:122-176 | As written, a branch whose connection test did not run raises on the unbound `res` once the user comparison has run, or with the comparison's own error first. A branch whose test ran is the corrected branch. |
| SyncLog.OtherModes | nextcloud_odoo_sync/models/nc_sync_log.py:152-170 | It raises exactly when no log is given and the recordset is empty. Otherwise one line is logged against the given log or the first record, with `read` and `info` as defaults and the mode's description. |
| SyncLog.LogEvent | nextcloud_odoo_sync/models/nc_sync_log.py:104-180 | A server URL that is unset or stored empty raises before anything else. In `pre_sync` a raising connection test propagates; otherwise the call is the as-written `pre_sync` branch or the line of the other modes. |
| SyncLog.LogEventFixed | nextcloud_odoo_sync/models/nc_sync_log.py:104-180 | `log_event` with `res` bound in both `pre_sync` branches. A server URL that is unset or stored empty still raises first. Outside `pre_sync` it is exactly the written `log_event`. |
| SyncLog.LogLineDefaults | nextcloud_odoo_sync/models/nc_sync_log.py:152-158 | With a non-empty server URL and outside `pre_sync`, it raises exactly when no log is given and the recordset is empty. The line goes to the given log, or else to the recordset's first record. The operation type defaults to `read` and the severity to `info`. |
| SyncLog.TextModeDescription | nextcloud_odoo_sync/models/nc_sync_log.py:160-161 | In `text` mode a given message is the description. |
| SyncLog.ErrorModeDescription | nextcloud_odoo_sync/models/nc_sync_log.py:153-167 | In `error` mode with a non-empty error text, the description is the message, a space and the error, or the error alone without a message. Otherwise no description is set. |
| SyncLog.PreSyncFailure | nextcloud_odoo_sync/models/nc_sync_log.py:115-176 | A server URL that is unset or stored empty makes `pre_sync` raise. With one, `pre_sync` as written raises exactly when calendar sync is disabled, when the enabled connection test raises, or when the test returns a principal and some Odoo user has no user name. |
| SyncLog.PreSyncDisabledCounterexample | nextcloud_odoo_sync/models/nc_sync_log.py:135-176 | With only the server URL stored and no users, the written `pre_sync` raises on the unbound `res`, and the corrected one succeeds with `resume` set. |
| SyncLog.PreSyncFixedFailure | nextcloud_odoo_sync/models/nc_sync_log.py:115-150 | With `res` bound, a server URL that is unset or stored empty still raises. With one, `pre_sync` raises exactly when the enabled connection test raises, or when users are compared and some Odoo user has no user name. |
| SyncLog.PreSyncFixedResume | nextcloud_odoo_sync/models/nc_sync_log.py:111-150 | With `res` bound, a non-empty server URL, every Odoo user named and a connection test that does not raise, `pre_sync` succeeds whether or not sync is enabled. The connection line is logged exactly when sync is enabled; with sync disabled the lines are the start line and the user comparison's. `resume` is false exactly when the enabled test returns an error record, and users are compared only while it holds. |
| SyncLog.PreSyncResume | nextcloud_odoo_sync/models/nc_sync_log.py:111-150 | With calendar sync enabled, a non-empty server URL, every Odoo user named and a connection test that does not raise, the written `pre_sync` succeeds. It creates a `connecting` log for the DAV URL whose first lines are the start line and the connection line. `resume` is false exactly when the test returns an error record, and users are compared only while `resume` holds. |
| TestData.HourlyEventsBackToBack | v_nextcloud/models/nextcloud.py:139-151 | Each generated event lasts one hour, and consecutive events follow without gap or overlap. |
| TestData.HourlyEventNamesDistinct | v_nextcloud/models/nextcloud.py:142-144 | Generated events have pairwise distinct names. |
| TestData.GenerateHourly | v_nextcloud/models/nextcloud.py:139-151 | The generator makes `event_count` events, or none when the count is not positive. The n-th event is the n-th hourly event. |
| TestData.CreatedLog | v_nextcloud/models/nextcloud.py:157 | The result log starts with `Created `, followed by digits that read back as the count and then a space. |
| TestData.CreatedLogInjective | v_nextcloud/models/nextcloud.py:157 | Different counts give different logs. |
| TestData.OdooEventsLog | v_nextcloud/models/nextcloud.py:142-157 | As written, the log raises exactly when the count is not positive, and otherwise reports the count. |
| TestData.OdooEventsLogCounterexample | v_nextcloud/models/nextcloud.py:142-157 | With count zero the written log raises, where a log starting `Created 0 ` was intended. |
| TestData.CreateOdooEvents | v_nextcloud/models/nextcloud.py:135-157 | As written, it fails exactly for a non-positive count. Otherwise it creates `count` hourly events and logs that number. |
| TestData.CreateOdooEventsFixed | v_nextcloud/models/nextcloud.py:135-157 | It never fails, and it logs the number of events actually generated. |
| TestData.SaveFilter | v_nextcloud/models/nextcloud.py:172-175 | Only `summary`, `dtstart` and `dtend` are passed on, with the record's values. |
| TestData.SaveFilterIdempotent | v_nextcloud/models/nextcloud.py:172-175 | Filtering an already filtered record changes nothing. |
| TestData.ForwardedEvent | v_nextcloud/models/nextcloud.py:166-175 | For a translated Odoo event, `save_event` receives the name as summary and the converted start and stop, each exactly when set, and nothing else. |
| TestData.SaveAll | v_nextcloud/models/nextcloud.py:171-181 | Every record is tried and a failed save is skipped. A record's event is among the saved ones exactly when its save succeeded. |
| TestData.CreateNextCloudEvent | v_nextcloud/models/nextcloud.py:89-107 | It raises exactly when the translation raises (an unresolved zone with a start or stop to send, whose error comes first) or the calendar cannot be opened. Otherwise the saved events are the translated, filtered rows whose save succeeded, in order. |
| TestData.CreateNextcloudEvents | v_nextcloud/models/nextcloud.py:159-187 | As written, it raises exactly when the translation raises or the calendar cannot be opened, writing no log. Otherwise the saved events are those accepted, but the log counts every row. |
| TestData.CreateNextcloudEventsFixed | v_nextcloud/models/nextcloud.py:159-187 | It raises in the same cases as the written code. Otherwise the log counts exactly the saved events. |
| TestData.NextcloudLogCounterexample | v_nextcloud/models/nextcloud.py:176-187 | One row whose save fails: nothing is saved, yet the written log differs from a log of zero events. |

## Left out

- **Reconciliation engine.** Event hashing, the comparator, the appliers and recurrence expansion are not part of this model.
- **Network and WebDAV I/O.** `get`, `post`, `rtn` and `get_users` send HTTP requests and are not modelled. Opening the wizard's calendar enters as its outcome, opened or raised. Their results enter as parameters: the users `get_users` returns, and the DAV client's outcome.
- **Other `nextcloud.caldav` operations.** `get_caldav_event`, `get_events_listed_dict` and the other fetch helpers only relay server data.
- **Other wizard operations.** `test_caldav`, `test_carddav`, `delete_all_nextcloud_events` and `load_all_nextcloud_events` of the test-data wizard only relay server data, like the fetch helpers.
- **`create_odoo_event`.** It reads a Google spreadsheet through a service this model does not contain.
- **`convert_readable_time_duration` and the timing of the wizard's log.** These depend on the clock. The model covers only the head of the log, up to the event count.
- **External libraries.** `jicson`, `dateutil` and `pytz` enter as uninterpreted functions. For `pytz`, only whether it knows a zone name is a parameter; how `astimezone` converts a date is not modelled, and it is taken not to raise.
- **Dates and times.**
  - Dates are opaque values, and the model does not render them as text.
  - The generator keeps instants as seconds rather than rendering `str(datetime)`.
  - `get_time_diff` takes instants as whole microseconds.
- Text.Lower: lower-cases ASCII letters only, where Python's `str.lower` follows Unicode.
- Values.Repr: does not escape quotes or backslashes inside texts.
- **Python's `True == 1`.** Python treats `True` as equal to `1` in comparisons and sets. The model keeps them distinct.
- **`check_nextcloud_connection` return shape.** It returns one value, but its callers unpack two. The model passes the classified outcome to every caller and does not model the unpacking.
- **Per-user `nextcloud_calendar_instance_per_user` pieces:**
  - the per-user `get_users` (network);
  - `default_get`;
  - the `get_user`/`nc_email` step at the end of `get_user_connection`, which needs a server round trip;
  - its own `hooks.py` (its search-domain semantics are not part of this model).
- **ORM persistence.**
  - Not modelled: commit, rollback, the `try`/`except` around `log_line.create`, selection validation, and `search(limit=...)`.
  - The rows that `search_read` would return are parameters.
- **Result ordering and log records.**
  - UninstallHook.Uninstall: the result is one possible order of `list(set(...))`, because Python's set order is not specified. List-form domain elements are not modelled. Leaves are three-element tuples whose value is not itself a tuple; tuples of other lengths and nested tuples, which `x[0]` and `set()` also accept, are not modelled. A stored literal that is not a list (a dict other than the empty `{}`, a number) is not modelled either.
  - SyncLog.LogEvent: the new record's id comes from a parameter, and its name and start date come from the clock, so they are not modelled.
- **Tests and manifests.** These are not modelled.

## Findings

| source | as written | input that shows it | evidently intended | confidence | as-written member | corrected member |
|---|---|---|---|---|---|---|
| nextcloud_odoo_sync/models/nc_sync_log.py:58-63 | The `else` belongs to the outer `if`. A Nextcloud user whose email is an Odoo user name is reported as "not in Odoo". | An Odoo user with user name `alice@x` and a Nextcloud user `alice` with email `alice@x` and display name `Alice`. | Report a Nextcloud user only when neither its email nor its display name is an Odoo user name. | not executed | SyncLog.CheckAndLogUsersCounterexample | SyncLog.FixedCheckSparesMatchedUsers |
| v_nextcloud/models/nextcloud.py:142-157 | The log names the loop variable `n`, which is unbound when `event_count` is not positive, so the wizard raises. | `event_count = 0` | Log "Created 0 Odoo event records". | not executed | TestData.OdooEventsLogCounterexample | TestData.CreateOdooEventsFixed |
| v_nextcloud/models/nextcloud.py:187 | The log counts every translated record, including records whose `save_event` raised. | One record whose save fails | Log the number of events saved. | not executed | TestData.NextcloudLogCounterexample | TestData.CreateNextcloudEventsFixed |
| nextcloud_odoo_sync/models/nc_sync_log.py:135-176 | `res` is bound only inside `if caldav_sync:`, but line 176 reads it after both branches. So `pre_sync` with calendar sync disabled raises UnboundLocalError after comparing the users. | Server URL `https://nc.example`, `enable_calendar_sync` unset, no users | Skip the connection test and return the result with `resume` set. | not executed | SyncLog.PreSyncDisabledCounterexample | SyncLog.PreSyncFixedResume |

The main model of `log_event` (`SyncLog.LogEvent`) uses `check_and_log_users` as
written, and its `pre_sync` branch reads `res` unbound when calendar sync is disabled.
The corrected variants are `SyncLog.CheckAndLogUsersFixed` and `SyncLog.LogEventFixed`.

=== FILE: caldav.dfy ===
/** `nextcloud.caldav`: the connection test's outcome classification, the
    static CalDAV-to-Odoo field map and its inversion, and the two record
    translators `get_caldav_record` and `set_caldav_record`. */
module Caldav {
  import opened Wrappers
  import opened Values
  import opened Text

  // ---------------------------------------------------------------------
  // Connection test

  /** What `DAVClient(...).principal()` did: returned a principal or raised. */
  datatype DavOutcome =
    | Principal(principal: string)
    | AuthorizationError(message: string)
    | PropfindError(message: string)
    | NetworkError(message: string)
    | OtherError(message: string)

  /** The DAV client as a function of URL, username and password. */
  type DavClient = (string, Value, Value) -> DavOutcome

  /** The value `check_nextcloud_connection` returns: the principal, or the
      error dictionary naming an `nc.sync.error` record and the exception text. */
  datatype Connection = Connected(principal: string) | SyncError(errorRef: string, description: string)

  const AuthErrorRef := "nextcloud_odoo_sync.nc_sync_error_1000"
  const ReachErrorRef := "nextcloud_odoo_sync.nc_sync_error_1001"

  /** `check_nextcloud_connection`: authorization failures become error 1000,
      PROPFIND and connection failures error 1001, any other exception
      propagates to the caller. */
  function CheckConnection(o: DavOutcome): (r: Result<Connection>)
    ensures (r.Success? && r.value.Connected?) <==> o.Principal?
    ensures o.Principal? ==> r == Success(Connected(o.principal))
    ensures (r.Success? && r.value.SyncError? && r.value.errorRef == AuthErrorRef) <==> o.AuthorizationError?
    ensures (r.Success? && r.value.SyncError? && r.value.errorRef == ReachErrorRef)
            <==> (o.PropfindError? || o.NetworkError?)
    ensures r.Success? && r.value.SyncError? ==> r.value.description == o.message
    ensures r.Failure? <==> o.OtherError?
  {
    match o
    case Principal(p) => Success(Connected(p))
    case AuthorizationError(m) => Success(SyncError(AuthErrorRef, m))
    case PropfindError(m) => Success(SyncError(ReachErrorRef, m))
    case NetworkError(m) => Success(SyncError(ReachErrorRef, m))
    case OtherError(m) => Failure(m)
  }

  // ---------------------------------------------------------------------
  // The field map and its inversion

  /** `get_caldav_fields()`: CalDAV property name to Odoo field name. */
  const CaldavFields: map<string, string> := map[
    "summary" := "name",
    "dtstart" := "start",
    "dtend" := "stop",
    "description" := "description",
    "organizer" := "user_id",
    "location" := "location",
    "attendee" := "partner_ids",
    "categories" := "categ_ids",
    "repeat" := "recurrency",
    "freebusy" := "show_as"
  ]

  /** The same dictionary's `items()`, in insertion order. */
  const FieldItems: seq<(string, string)> := [
    ("summary", "name"),
    ("dtstart", "start"),
    ("dtend", "stop"),
    ("description", "description"),
    ("organizer", "user_id"),
    ("location", "location"),
    ("attendee", "partner_ids"),
    ("categories", "categ_ids"),
    ("repeat", "recurrency"),
    ("freebusy", "show_as")
  ]

  /** `dict(items)`: a later pair overwrites an earlier one with the same key. */
  function DictOf<K, V>(items: seq<(K, V)>): map<K, V> {
    if items == [] then map[]
    else DictOf(items[..|items| - 1])[items[|items| - 1].0 := items[|items| - 1].1]
  }

  /** `{v: k for k, v in items}`. */
  function InvertItems<K, V>(items: seq<(K, V)>): map<V, K> {
    if items == [] then map[]
    else InvertItems(items[..|items| - 1])[items[|items| - 1].1 := items[|items| - 1].0]
  }

  function Swap<K, V>(items: seq<(K, V)>): (r: seq<(V, K)>)
    ensures |r| == |items|
    ensures forall i :: 0 <= i < |items| ==> r[i] == (items[i].1, items[i].0)
  {
    seq(|items|, i requires 0 <= i < |items| => (items[i].1, items[i].0))
  }

  /** The inverted map built by `set_caldav_record`: Odoo field to CalDAV name. */
  const OdooFields: map<string, string> := InvertItems(FieldItems)

  /** The inverted map's keys in the order the comprehension inserts them. */
  const OdooFieldOrder: seq<string> := [
    "name", "start", "stop", "description", "user_id",
    "location", "partner_ids", "categ_ids", "recurrency", "show_as"
  ]

  /** `inv` undoes `m`: it is defined exactly on `m`'s values and sends each
      value back to the key it came from. */
  ghost predicate IsInverse<K, V>(m: map<K, V>, inv: map<V, K>) {
    && inv.Keys == m.Values
    && forall k :: k in m ==> inv[m[k]] == k
  }

  /** A map with an inverse is one-to-one, and its inverse inverts back to the
      map itself: inverting twice gives the original. */
  lemma InverseOfInverse<K, V>(m: map<K, V>, inv: map<V, K>)
    requires IsInverse(m, inv)
    ensures forall a, b :: a in m && b in m && m[a] == m[b] ==> a == b
    ensures IsInverse(inv, m)
  {
    assert inv.Values == m.Keys by {
      forall k | k in m ensures k in inv.Values {
        assert inv[m[k]] == k;
      }
      forall k | k in inv.Values ensures k in m {
        var v :| v in inv && inv[v] == k;
        var k' :| k' in m && m[k'] == v;
        assert inv[m[k']] == k';
      }
    }
    forall v | v in inv ensures m[inv[v]] == v {
      var k :| k in m && m[k] == v;
      assert inv[m[k]] == k;
    }
  }

  /** A map and its inverse have the same number of entries. */
  lemma MapSizeOfInverse<K, V>(m: map<K, V>, inv: map<V, K>)
    requires IsInverse(m, inv)
    ensures |inv| == |m|
  {
    InverseOfInverse(m, inv);
    InjectiveImageSize(m.Keys, m, inv);
  }

  lemma {:induction false} InjectiveImageSize<K, V>(ks: set<K>, m: map<K, V>, inv: map<V, K>)
    requires ks <= m.Keys
    requires forall k :: k in m ==> m[k] in inv && inv[m[k]] == k
    ensures |set k | k in ks :: m[k]| == |ks|
    decreases |ks|
  {
    if ks != {} {
      var k :| k in ks;
      var rest := ks - {k};
      InjectiveImageSize(rest, m, inv);
      var img := set x | x in rest :: m[x];
      assert (set x | x in ks :: m[x]) == img + {m[k]};
      assert m[k] !in img;
    }
  }

  /** Two inverses of one map are equal. */
  lemma InverseIsUnique<K, V>(m: map<K, V>, a: map<V, K>, b: map<V, K>)
    requires IsInverse(m, a) && IsInverse(m, b)
    ensures a == b
  {
    forall v | v in a ensures b[v] == a[v] {
      var k :| k in m && m[k] == v;
    }
  }

  /** Reading the inverse's items back through the comprehension once more
      gives the dictionary the items came from. */
  lemma {:induction false} InvertSwapped<K, V>(items: seq<(K, V)>)
    ensures InvertItems(Swap(items)) == DictOf(items)
  {
    if items != [] {
      var init := items[..|items| - 1];
      assert Swap(items)[..|items| - 1] == Swap(init);
      InvertSwapped(init);
    }
  }

  lemma DictOfSnoc<K, V>(items: seq<(K, V)>, k: nat)
    requires k < |items|
    ensures DictOf(items[..k + 1]) == DictOf(items[..k])[items[k].0 := items[k].1]
  {
    assert items[..k + 1][..k] == items[..k];
  }

  lemma InvertItemsSnoc<K, V>(items: seq<(K, V)>, k: nat)
    requires k < |items|
    ensures InvertItems(items[..k + 1]) == InvertItems(items[..k])[items[k].1 := items[k].0]
  {
    assert items[..k + 1][..k] == items[..k];
  }

  /** The first five items as a dictionary. */
  lemma FieldItemsFirstHalf()
    ensures DictOf(FieldItems[..5]) == map[
      "summary" := "name",
      "dtstart" := "start",
      "dtend" := "stop",
      "description" := "description",
      "organizer" := "user_id"
    ]
  {
    assert FieldItems[..0] == [];
    DictOfSnoc(FieldItems, 0); DictOfSnoc(FieldItems, 1); DictOfSnoc(FieldItems, 2);
    DictOfSnoc(FieldItems, 3); DictOfSnoc(FieldItems, 4);
  }

  /** The listed items are those of the field map. */
  lemma FieldItemsOfCaldavFields()
    ensures DictOf(FieldItems) == CaldavFields
  {
    FieldItemsFirstHalf();
    DictOfSnoc(FieldItems, 5); DictOfSnoc(FieldItems, 6); DictOfSnoc(FieldItems, 7);
    DictOfSnoc(FieldItems, 8); DictOfSnoc(FieldItems, 9);
    assert FieldItems[..10] == FieldItems;
  }

  /** The first five items, inverted. */
  lemma OdooFieldsFirstHalf()
    ensures InvertItems(FieldItems[..5]) == map[
      "name" := "summary",
      "start" := "dtstart",
      "stop" := "dtend",
      "description" := "description",
      "user_id" := "organizer"
    ]
  {
    assert FieldItems[..0] == [];
    InvertItemsSnoc(FieldItems, 0); InvertItemsSnoc(FieldItems, 1); InvertItemsSnoc(FieldItems, 2);
    InvertItemsSnoc(FieldItems, 3); InvertItemsSnoc(FieldItems, 4);
  }

  /** The inverted map, written out. */
  lemma OdooFieldsTable()
    ensures OdooFields == map[
      "name" := "summary",
      "start" := "dtstart",
      "stop" := "dtend",
      "description" := "description",
      "user_id" := "organizer",
      "location" := "location",
      "partner_ids" := "attendee",
      "categ_ids" := "categories",
      "recurrency" := "repeat",
      "show_as" := "freebusy"
    ]
  {
    OdooFieldsFirstHalf();
    InvertItemsSnoc(FieldItems, 5); InvertItemsSnoc(FieldItems, 6); InvertItemsSnoc(FieldItems, 7);
    InvertItemsSnoc(FieldItems, 8); InvertItemsSnoc(FieldItems, 9);
    assert FieldItems[..10] == FieldItems;
  }

  lemma CaldavFieldsSize()
    ensures |CaldavFields| == 10
  {
    var m0: map<string, string> := map[];
    assert "summary" !in m0;
    var m1 := m0["summary" := "name"];
    assert |m1| == 1;
    assert "dtstart" !in m1;
    var m2 := m1["dtstart" := "start"];
    assert |m2| == 2;
    assert "dtend" !in m2;
    var m3 := m2["dtend" := "stop"];
    assert |m3| == 3;
    assert "description" !in m3;
    var m4 := m3["description" := "description"];
    assert |m4| == 4;
    assert "organizer" !in m4;
    var m5 := m4["organizer" := "user_id"];
    assert |m5| == 5;
    assert "location" !in m5;
    var m6 := m5["location" := "location"];
    assert |m6| == 6;
    assert "attendee" !in m6;
    var m7 := m6["attendee" := "partner_ids"];
    assert |m7| == 7;
    assert "categories" !in m7;
    var m8 := m7["categories" := "categ_ids"];
    assert |m8| == 8;
    assert "repeat" !in m8;
    var m9 := m8["repeat" := "recurrency"];
    assert |m9| == 9;
    assert "freebusy" !in m9;
    var m10 := m9["freebusy" := "show_as"];
    assert |m10| == 10;
    assert CaldavFields == m10;
  }

  lemma OdooFieldsUndoCaldavFields()
    ensures forall k :: k in CaldavFields ==> CaldavFields[k] in OdooFields && OdooFields[CaldavFields[k]] == k
  {
    OdooFieldsTable();
  }

  lemma CaldavFieldsUndoOdooFields()
    ensures forall v :: v in OdooFields ==> OdooFields[v] in CaldavFields && CaldavFields[OdooFields[v]] == v
  {
    OdooFieldsTable();
  }

  /** Two maps that undo each other entry by entry are each other's inverse. */
  lemma MutualUndoIsInverse<K, V>(m: map<K, V>, inv: map<V, K>)
    requires forall k :: k in m ==> m[k] in inv && inv[m[k]] == k
    requires forall v :: v in inv ==> inv[v] in m && m[inv[v]] == v
    ensures IsInverse(m, inv)
  {
    forall v | v in inv ensures v in m.Values {
      assert m[inv[v]] == v;
    }
  }

  lemma OdooFieldsKeys()
    ensures OdooFields.Keys == set f | f in OdooFieldOrder
  {
    OdooFieldsTable();
  }

  /** The ten CalDAV names map to ten distinct Odoo fields, so the inversion
      at `set_caldav_record` loses nothing: the two maps are each other's
      inverse, the inverted map is the only inverse there is, and its keys
      are exactly the fields iterated. */
  lemma FieldMapIsBijection()
    ensures |CaldavFields| == 10 && |OdooFields| == 10
    ensures IsInverse(CaldavFields, OdooFields)
    ensures IsInverse(OdooFields, CaldavFields)
    ensures OdooFields.Keys == set f | f in OdooFieldOrder
    ensures forall inv :: IsInverse(CaldavFields, inv) ==> inv == OdooFields
  {
    CaldavFieldsSize();
    OdooFieldsUndoCaldavFields();
    CaldavFieldsUndoOdooFields();
    MutualUndoIsInverse(CaldavFields, OdooFields);
    InverseOfInverse(CaldavFields, OdooFields);
    MapSizeOfInverse(CaldavFields, OdooFields);
    OdooFieldsKeys();
    forall inv | IsInverse(CaldavFields, inv) ensures inv == OdooFields {
      InverseIsUnique(CaldavFields, inv, OdooFields);
    }
  }

  // ---------------------------------------------------------------------
  // get_caldav_record

  /** A VEVENT as the iCalendar parser returns it: property name and value
      pairs in document order. */
  type Property = (string, string)

  /** One `VCALENDAR` block with its `VEVENT` blocks. */
  datatype VCalendar = VCalendar(vevents: seq<seq<Property>>)

  /** The property's lower-cased name is a key of the field map `fields`. */
  predicate Mapped(fields: map<string, string>, name: string) {
    Lower(name) in fields
  }

  /** The value stored: the parser's `'%Y-%m-%d %H:%M:%S'` rendering when the
      date parser accepts the text, the raw text otherwise. */
  function Converted(parse: string -> Option<string>, value: string): string {
    match parse(value)
    case Some(t) => t
    case None => value
  }

  /** The loop over the VEVENT's properties with the field map `fields`: a
      mapped property is stored under its Odoo field, overwriting an earlier
      property mapped to the same field. */
  function Translate(fields: map<string, string>, props: seq<Property>, parse: string -> Option<string>)
    : map<string, string>
  {
    if props == [] then map[]
    else
      var rest := Translate(fields, props[..|props| - 1], parse);
      var p := props[|props| - 1];
      if Mapped(fields, p.0) then rest[fields[Lower(p.0)] := Converted(parse, p.1)] else rest
  }

  /** Property `i` is the last one of `props` stored under Odoo field `f`. */
  ghost predicate WinsFor(fields: map<string, string>, props: seq<Property>, i: int, f: string) {
    && 0 <= i < |props|
    && Mapped(fields, props[i].0)
    && fields[Lower(props[i].0)] == f
    && forall j :: i < j < |props| && Mapped(fields, props[j].0) ==> fields[Lower(props[j].0)] != f
  }

  /** Every mapped property leaves its Odoo field in the result, and nothing
      else is there. */
  lemma {:induction false} TranslateKeys(fields: map<string, string>, props: seq<Property>,
                                         parse: string -> Option<string>)
    ensures Translate(fields, props, parse).Keys <= fields.Values
    ensures forall i :: 0 <= i < |props| && Mapped(fields, props[i].0) ==>
              fields[Lower(props[i].0)] in Translate(fields, props, parse)
  {
    if props != [] {
      var init := props[..|props| - 1];
      TranslateKeys(fields, init, parse);
      forall i | 0 <= i < |props| - 1 ensures props[i] == init[i] { }
    }
  }

  /** Every field of the result comes from a property that wins it. */
  lemma {:induction false} TranslateWinners(fields: map<string, string>, props: seq<Property>,
                                            parse: string -> Option<string>, f: string)
    requires f in Translate(fields, props, parse)
    ensures exists i :: WinsFor(fields, props, i, f)
  {
    var n := |props| - 1;
    var p := props[n];
    var init := props[..n];
    if Mapped(fields, p.0) && f == fields[Lower(p.0)] {
      assert WinsFor(fields, props, n, f);
    } else {
      assert f in Translate(fields, init, parse);
      TranslateWinners(fields, init, parse, f);
      var i :| WinsFor(fields, init, i, f);
      assert WinsFor(fields, props, i, f);
    }
  }

  /** The winning property's converted value is the one stored. */
  lemma {:induction false} TranslateWinnerValue(fields: map<string, string>, props: seq<Property>,
                                                parse: string -> Option<string>, i: int, f: string)
    requires WinsFor(fields, props, i, f)
    ensures f in Translate(fields, props, parse) && Translate(fields, props, parse)[f] == Converted(parse, props[i].1)
  {
    var n := |props| - 1;
    if i < n {
      var init := props[..n];
      assert WinsFor(fields, init, i, f);
      TranslateWinnerValue(fields, init, parse, i, f);
    }
  }

  /** What `get_caldav_record` makes of a VEVENT: only Odoo fields of the map
      appear; a field appears iff some property's lower-cased name maps to it;
      its value is the converted value of the last such property. Unmapped
      properties are ignored. */
  lemma TranslateSpec(fields: map<string, string>, props: seq<Property>, parse: string -> Option<string>)
    ensures Translate(fields, props, parse).Keys <= fields.Values
    ensures forall i :: 0 <= i < |props| && Mapped(fields, props[i].0) ==>
              fields[Lower(props[i].0)] in Translate(fields, props, parse)
    ensures forall f :: f in Translate(fields, props, parse) ==> exists i :: WinsFor(fields, props, i, f)
    ensures forall i, f :: WinsFor(fields, props, i, f) ==>
              f in Translate(fields, props, parse) && Translate(fields, props, parse)[f] == Converted(parse, props[i].1)
  {
    TranslateKeys(fields, props, parse);
    forall f | f in Translate(fields, props, parse) ensures exists i :: WinsFor(fields, props, i, f) {
      TranslateWinners(fields, props, parse, f);
    }
    forall i, f | WinsFor(fields, props, i, f)
      ensures f in Translate(fields, props, parse) && Translate(fields, props, parse)[f] == Converted(parse, props[i].1)
    {
      TranslateWinnerValue(fields, props, parse, i, f);
    }
  }

  /** `get_caldav_record`: translates the first VEVENT of the first calendar of
      the first fetched event; an empty list at any of these steps raises. */
  function GetCaldavRecord(events: seq<string>, fromText: string -> seq<VCalendar>,
                           parse: string -> Option<string>): (r: Result<map<string, string>>)
    ensures r.Success? <==>
              |events| > 0 && |fromText(events[0])| > 0 && |fromText(events[0])[0].vevents| > 0
    ensures r.Success? ==> r.value == Translate(CaldavFields, fromText(events[0])[0].vevents[0], parse)
  {
    if |events| == 0 then Failure("IndexError: list index out of range")
    else
      var calendars := fromText(events[0]);
      if |calendars| == 0 then Failure("IndexError: list index out of range")
      else if |calendars[0].vevents| == 0 then Failure("IndexError: list index out of range")
      else Success(Translate(CaldavFields, calendars[0].vevents[0], parse))
  }

  // ---------------------------------------------------------------------
  // set_caldav_record

  /** Fields the translator leaves for later (`# TODO: Handle these fields`). */
  const SkippedFields: set<string> := {"user_id", "partner_ids"}

  /** Fields sent through the user's time-zone conversion. */
  const ZonedFields: set<string> := {"start", "stop"}

  /** The Odoo field `f` of row `e` is sent: present, truthy and not skipped. */
  predicate Sent(e: Dict, f: string) {
    f in e && Truthy(e[f]) && f !in SkippedFields
  }

  /** The value sent for field `f`: time-zone converted for start and stop,
      unchanged otherwise. */
  function Outgoing(e: Dict, f: string, toLocal: Value -> Value): Value {
    if f in ZonedFields then toLocal(Get(e, f)) else Get(e, f)
  }

  /** The inner loop of `set_caldav_record` over the keys `order` of the
      inverted map `inv` (Odoo field to CalDAV name). */
  function Emit(inv: map<string, string>, order: seq<string>, e: Dict, toLocal: Value -> Value)
    : map<string, Value>
  {
    if order == [] then map[]
    else
      var vals := Emit(inv, order[..|order| - 1], e, toLocal);
      var f := order[|order| - 1];
      if f in inv && f in e && Truthy(e[f]) then
        if f in ZonedFields then vals[inv[f] := toLocal(e[f])]
        else if f in SkippedFields then vals
        else vals[inv[f] := e[f]]
      else vals
  }

  /** One row of `search_read` turned into CalDAV properties. */
  function TranslateRecord(e: Dict, toLocal: Value -> Value): map<string, Value> {
    Emit(OdooFields, OdooFieldOrder, e, toLocal)
  }

  /** When `inv` inverts the field map `m`, a CalDAV name is emitted iff its
      Odoo field is among those iterated and is sent; its value is the
      outgoing value of that field. */
  lemma {:induction false} EmitSpec(m: map<string, string>, inv: map<string, string>, order: seq<string>,
                                    e: Dict, toLocal: Value -> Value)
    requires IsInverse(m, inv) && IsInverse(inv, m)
    ensures forall c :: c in Emit(inv, order, e, toLocal) <==> c in m && m[c] in order && Sent(e, m[c])
    ensures forall c :: c in Emit(inv, order, e, toLocal) ==> Emit(inv, order, e, toLocal)[c] == Outgoing(e, m[c], toLocal)
  {
    if order != [] {
      var init := order[..|order| - 1];
      var f := order[|order| - 1];
      assert forall x :: x in order <==> x in init || x == f by {
        assert order == init + [f];
      }
      EmitSpec(m, inv, init, e, toLocal);
      var r := Emit(inv, order, e, toLocal);
      var rest := Emit(inv, init, e, toLocal);
      forall c
        ensures c in r <==> c in m && m[c] in order && Sent(e, m[c])
        ensures c in r ==> r[c] == Outgoing(e, m[c], toLocal)
      {
        if c in m && m[c] == f {
          assert inv[m[c]] == c;
        } else {
          if f in inv { assert m[inv[f]] == f; }
          assert c in r <==> c in rest;
        }
      }
    }
  }

  /** What `set_caldav_record` sends for one Odoo row: for every CalDAV name
      of the map, the property is present iff its Odoo field is present,
      truthy and not `user_id`/`partner_ids`; `start`/`stop` go through the
      time-zone conversion as `dtstart`/`dtend`, every other field is copied
      unchanged. No `organizer` or `attendee` is ever sent. */
  lemma TranslateRecordSpec(e: Dict, toLocal: Value -> Value)
    ensures TranslateRecord(e, toLocal).Keys <= CaldavFields.Keys
    ensures forall c :: c in CaldavFields ==>
              (c in TranslateRecord(e, toLocal) <==> Sent(e, CaldavFields[c]))
    ensures forall c :: c in TranslateRecord(e, toLocal) ==>
              TranslateRecord(e, toLocal)[c] == Outgoing(e, CaldavFields[c], toLocal)
    ensures "organizer" !in TranslateRecord(e, toLocal) && "attendee" !in TranslateRecord(e, toLocal)
    ensures "dtstart" in TranslateRecord(e, toLocal) ==> TranslateRecord(e, toLocal)["dtstart"] == toLocal(Get(e, "start"))
    ensures "dtend" in TranslateRecord(e, toLocal) ==> TranslateRecord(e, toLocal)["dtend"] == toLocal(Get(e, "stop"))
  {
    TranslateRecordSent(e, toLocal);
    FieldLookups();
  }

  /** The entries of the field map the translators treat specially. */
  lemma FieldLookups()
    ensures "summary" in CaldavFields && CaldavFields["summary"] == "name"
    ensures "dtstart" in CaldavFields && CaldavFields["dtstart"] == "start"
    ensures "dtend" in CaldavFields && CaldavFields["dtend"] == "stop"
    ensures "organizer" in CaldavFields && CaldavFields["organizer"] == "user_id"
    ensures "attendee" in CaldavFields && CaldavFields["attendee"] == "partner_ids"
  {
  }

  /** Every CalDAV name of the map is emitted iff its Odoo field is sent, with
      that field's outgoing value. */
  lemma TranslateRecordSent(e: Dict, toLocal: Value -> Value)
    ensures TranslateRecord(e, toLocal).Keys <= CaldavFields.Keys
    ensures forall c :: c in CaldavFields ==>
              (c in TranslateRecord(e, toLocal) <==> Sent(e, CaldavFields[c]))
    ensures forall c :: c in TranslateRecord(e, toLocal) ==>
              TranslateRecord(e, toLocal)[c] == Outgoing(e, CaldavFields[c], toLocal)
  {
    FieldMapIsBijection();
    EmitSpec(CaldavFields, OdooFields, OdooFieldOrder, e, toLocal);
    forall c | c in CaldavFields ensures CaldavFields[c] in OdooFieldOrder {
      assert CaldavFields[c] in CaldavFields.Values;
      assert CaldavFields[c] in OdooFields.Keys;
    }
  }

  /** What `get_local_datetime` depends on: the user's `tz` field, whether
      pytz knows a zone name, and `astimezone` into a named zone. */
  datatype LocalTime = LocalTime(userTz: Value, known: string -> bool, astimezone: (string, Value) -> Value)

  /** `pytz.timezone(self.env.user.tz or pytz.utc)`. A falsy `tz` hands pytz
      the `utc` object itself, whose missing `upper` raises, as does any
      other value that is not text; a name pytz does not know raises
      `UnknownTimeZoneError`. */
  function LocalZone(lt: LocalTime): (r: Result<string>)
    ensures r.Success? <==> lt.userTz.Str? && lt.userTz.s != "" && lt.known(lt.userTz.s)
    ensures r.Success? ==> r.value == lt.userTz.s
  {
    if !Truthy(lt.userTz) then Failure("AttributeError: 'UTC' object has no attribute 'upper'")
    else if !lt.userTz.Str? then Failure("AttributeError: object has no attribute 'upper'")
    else if !lt.known(lt.userTz.s) then Failure("UnknownTimeZoneError: " + lt.userTz.s)
    else Success(lt.userTz.s)
  }

  /** `get_local_datetime` once the zone is resolved. Without a zone no row
      that reaches it survives, so the identity stands in for rows that never
      call it. */
  function ToLocal(lt: LocalTime): (r: Value -> Value)
    ensures LocalZone(lt).Success? ==> forall v :: r(v) == lt.astimezone(lt.userTz.s, v)
  {
    if LocalZone(lt).Success? then (v: Value) => lt.astimezone(lt.userTz.s, v) else (v: Value) => v
  }

  /** Row `e` sends a field through the time-zone conversion. */
  predicate NeedsZone(e: Dict) {
    Sent(e, "start") || Sent(e, "stop")
  }

  /** `set_caldav_record` raises on `rows`: the user's zone does not resolve
      and some row needs it. */
  predicate ZoneFailsFor(rows: seq<Dict>, lt: LocalTime) {
    LocalZone(lt).Failure? && exists i :: 0 <= i < |rows| && NeedsZone(rows[i])
  }

  /** A row that sends neither start nor stop never calls the conversion:
      any two conversions translate it alike. */
  lemma TranslateIgnoresConversion(e: Dict, f: Value -> Value, g: Value -> Value)
    requires !NeedsZone(e)
    ensures TranslateRecord(e, f) == TranslateRecord(e, g)
  {
    TranslateRecordSent(e, f);
    TranslateRecordSent(e, g);
    var a := TranslateRecord(e, f);
    var b := TranslateRecord(e, g);
    forall c | c in a ensures c in b && a[c] == b[c] {
      assert CaldavFields[c] !in ZonedFields;
    }
  }

  /** `set_caldav_record`: one CalDAV dictionary per `search_read` row, in
      row order. It raises, at the first such row, when the user's zone does
      not resolve and some row sends a start or stop. */
  method SetCaldavRecord(rows: seq<Dict>, lt: LocalTime) returns (r: Result<seq<map<string, Value>>>)
    ensures r.Failure? <==> ZoneFailsFor(rows, lt)
    ensures r.Failure? ==> r.error == LocalZone(lt).error
    ensures r.Success? ==> |r.value| == |rows|
    ensures r.Success? ==> forall i :: 0 <= i < |rows| ==> r.value[i] == TranslateRecord(rows[i], ToLocal(lt))
  {
    if ZoneFailsFor(rows, lt) {
      return Failure(LocalZone(lt).error);
    }
    var toLocal := ToLocal(lt);
    var result := [];
    var k := 0;
    while k < |rows|
      invariant 0 <= k <= |rows|
      invariant |result| == k
      invariant forall i :: 0 <= i < k ==> result[i] == TranslateRecord(rows[i], toLocal)
    {
      result := result + [TranslateRecord(rows[k], toLocal)];
      k := k + 1;
    }
    return Success(result);
  }
}

=== FILE: calendar_event.dfy ===
/** The `write` override of `calendar.event`: an edit made outside the sync
    marks the event as not yet synced to Nextcloud. */
module CalendarEvent {
  import opened Values

  const SyncedField := "nc_synced"

  /** Whether the context carries a truthy `sync` flag. */
  predicate InSync(context: Dict) {
    Truthy(Get(context, "sync"))
  }

  /** The values `write` passes on to the ORM. */
  function Write(vals: Dict, context: Dict): (r: Dict)
    ensures !InSync(context) ==> SyncedField in r && r[SyncedField] == Bool(false)
    ensures InSync(context) ==> r == vals
    ensures r.Keys == vals.Keys + (if InSync(context) then {} else {SyncedField})
    ensures forall k :: k in vals && k != SyncedField ==> r[k] == vals[k]
  {
    if InSync(context) then vals else vals[SyncedField := Bool(false)]
  }

  /** An event can only be stored as synced by a write made in the sync
      context that asks for it. */
  lemma OnlySyncMarksSynced(vals: Dict, context: Dict)
    requires SyncedField in Write(vals, context) && Truthy(Write(vals, context)[SyncedField])
    ensures InSync(context) && SyncedField in vals && Truthy(vals[SyncedField])
  {
  }

  /** Applying the override to its own output changes nothing more. */
  lemma WriteIdempotent(vals: Dict, context: Dict)
    ensures Write(Write(vals, context), context) == Write(vals, context)
  {
  }
}

=== FILE: config_settings.dfy ===
/** `res.config.settings` of the sync add-on: saving the Nextcloud settings
    stores the server URL without surrounding slashes and, when calendar sync
    is enabled, tests the connection and records its status. */
module ConfigSettings {
  import opened Wrappers
  import opened Values
  import opened Text
  import opened ConfigKeys
  import opened Caldav

  /** The settings form's fields read by `set_values`. */
  datatype Settings = Settings(nextcloudUrl: Value, login: Value, password: Value)

  /** The three values `get_values` reads back. */
  datatype StoredValues = StoredValues(nextcloudUrl: Value, status: Value, error: Value)

  /** Connection status and error text recorded for a connection test: a
      returned error record means `'fail'` with its description, anything
      else `'online'` with the error cleared to `False`. */
  function StatusOf(c: Connection): (r: (Value, Value))
    ensures c.SyncError? <==> r.0 == Str("fail")
    ensures c.Connected? <==> r.0 == Str("online")
    ensures c.SyncError? ==> r.1 == Str(c.description)
    ensures c.Connected? ==> r.1 == Bool(false)
  {
    match c
    case SyncError(_, d) => (Str("fail"), Str(d))
    case Connected(_) => (Str("online"), Bool(false))
  }

  /** Whether the store, as the framework's own `set_values` left it, has
      calendar sync enabled. */
  predicate SyncEnabled(cfg: Config) {
    Truthy(GetParam(cfg, EnableKey))
  }

  /** Writes the outcome of a connection test into the store: status first,
      then the error text (or its removal). An empty error text is stored but
      reads back as `False`. */
  function RecordStatus(cfg: Config, c: Connection): (r: Config)
    ensures GetParam(r, StatusKey) == StatusOf(c).0
    ensures c.SyncError? ==> ErrorKey in r && r[ErrorKey] == c.description
    ensures c.Connected? ==> ErrorKey !in r
    ensures c.SyncError? && c.description != "" ==> GetParam(r, ErrorKey) == Str(c.description)
    ensures c.Connected? || c.description == "" ==> GetParam(r, ErrorKey) == Bool(false)
    ensures forall k :: k != StatusKey && k != ErrorKey ==> GetParam(r, k) == GetParam(cfg, k)
    ensures forall k :: k != StatusKey && k != ErrorKey && k in cfg ==> k in r && r[k] == cfg[k]
  {
    KeysDistinct();
    var status := StatusOf(c);
    SetParam(SetParam(cfg, StatusKey, status.0), ErrorKey, status.1)
  }

  /** The connection test `set_values` runs on the stripped URL `url`. */
  function TestConnection(s: Settings, url: string, dav: DavClient): Result<Connection> {
    CheckConnection(dav(url + DavPath, s.login, s.password))
  }

  /** `set_values` after the framework has stored the plain settings in `cfg`.
      Calling `.strip` on an unset URL field raises, and so does a connection
      test that raises. The saved store is the stripped URL written over
      `cfg`, followed by the test's status when sync is enabled. */
  function SetValues(s: Settings, cfg: Config, dav: DavClient): (r: Result<Config>)
    ensures r.Failure? <==>
              !s.nextcloudUrl.Str?
              || (SyncEnabled(cfg) && dav(StripSlashes(s.nextcloudUrl.s) + DavPath, s.login, s.password).OtherError?)
    ensures r.Success? && !SyncEnabled(cfg) ==>
              r.value == SetParam(cfg, UrlKey, Str(StripSlashes(s.nextcloudUrl.s)))
    ensures r.Success? && SyncEnabled(cfg) ==>
              r.value == RecordStatus(SetParam(cfg, UrlKey, Str(StripSlashes(s.nextcloudUrl.s))),
                                      TestConnection(s, StripSlashes(s.nextcloudUrl.s), dav).value)
  {
    match s.nextcloudUrl
    case Str(u) =>
      var url := StripSlashes(u);
      var stored := SetParam(cfg, UrlKey, Str(url));
      KeysDistinct();
      assert GetParam(stored, EnableKey) == GetParam(cfg, EnableKey);
      if Truthy(GetParam(stored, EnableKey)) then
        match TestConnection(s, url, dav)
        case Failure(e) => Failure(e)
        case Success(c) => Success(RecordStatus(stored, c))
      else Success(stored)
    case _ => Failure("AttributeError: 'bool' object has no attribute 'strip'")
  }

  /** Saving stores the stripped URL. It reads back as that text, or as
      `False` when the URL was slashes only and so is stored empty. */
  lemma SetValuesUrl(s: Settings, cfg: Config, dav: DavClient)
    requires SetValues(s, cfg, dav).Success?
    ensures UrlKey in SetValues(s, cfg, dav).value
    ensures SetValues(s, cfg, dav).value[UrlKey] == StripSlashes(s.nextcloudUrl.s)
    ensures !AllSlashes(s.nextcloudUrl.s) ==>
              GetParam(SetValues(s, cfg, dav).value, UrlKey) == Str(StripSlashes(s.nextcloudUrl.s))
    ensures AllSlashes(s.nextcloudUrl.s) ==> GetParam(SetValues(s, cfg, dav).value, UrlKey) == Bool(false)
  {
    var url := StripSlashes(s.nextcloudUrl.s);
    var stored := SetParam(cfg, UrlKey, Str(url));
    KeysDistinct();
    StripEmptyIff(s.nextcloudUrl.s);
    if SyncEnabled(cfg) {
      var r := RecordStatus(stored, TestConnection(s, url, dav).value);
      assert r[UrlKey] == url;
      assert GetParam(r, UrlKey) == GetParam(stored, UrlKey);
    }
  }

  /** The connection status saved: with sync disabled the stored status and
      error stay as they were; with sync enabled a reachable server with valid
      credentials gives `online` and no error, any other outcome `fail` with
      the failure's text, which reads back as `False` when it is empty. */
  lemma SetValuesStatus(s: Settings, cfg: Config, dav: DavClient)
    requires SetValues(s, cfg, dav).Success?
    ensures var r := SetValues(s, cfg, dav).value;
            !SyncEnabled(cfg) ==>
              GetParam(r, StatusKey) == GetParam(cfg, StatusKey) && GetParam(r, ErrorKey) == GetParam(cfg, ErrorKey)
    ensures var r := SetValues(s, cfg, dav).value;
            var test := dav(StripSlashes(s.nextcloudUrl.s) + DavPath, s.login, s.password);
            SyncEnabled(cfg) ==>
              && (test.Principal? ==> GetParam(r, StatusKey) == Str("online") && GetParam(r, ErrorKey) == Bool(false))
              && (!test.Principal? ==> GetParam(r, StatusKey) == Str("fail") && r[ErrorKey] == test.message)
              && (!test.Principal? && test.message != "" ==> GetParam(r, ErrorKey) == Str(test.message))
              && (!test.Principal? && test.message == "" ==> GetParam(r, ErrorKey) == Bool(false))
  {
    KeysDistinct();
  }

  /** Saving touches only the URL, status and error parameters. */
  lemma SetValuesKeepsOthers(s: Settings, cfg: Config, dav: DavClient, k: string)
    requires SetValues(s, cfg, dav).Success?
    requires k != UrlKey && k != StatusKey && k != ErrorKey
    ensures GetParam(SetValues(s, cfg, dav).value, k) == GetParam(cfg, k)
  {
  }

  /** `get_values`: the server URL, connection status and error as stored. */
  function GetValues(cfg: Config): StoredValues {
    StoredValues(GetParam(cfg, UrlKey), GetParam(cfg, StatusKey), GetParam(cfg, ErrorKey))
  }

  /** Saving then reading the settings gives back the stripped URL, or
      `False` for a URL of slashes only, and the status and error the
      connection test decided; with sync disabled the status and error read
      back are the ones stored before. */
  lemma SettingsRoundTrip(s: Settings, cfg: Config, dav: DavClient)
    requires SetValues(s, cfg, dav).Success?
    ensures !AllSlashes(s.nextcloudUrl.s) ==>
              GetValues(SetValues(s, cfg, dav).value).nextcloudUrl == Str(StripSlashes(s.nextcloudUrl.s))
    ensures AllSlashes(s.nextcloudUrl.s) ==> GetValues(SetValues(s, cfg, dav).value).nextcloudUrl == Bool(false)
    ensures !SyncEnabled(cfg) ==>
              GetValues(SetValues(s, cfg, dav).value).status == GetValues(cfg).status
              && GetValues(SetValues(s, cfg, dav).value).error == GetValues(cfg).error
    ensures SyncEnabled(cfg) ==>
              var c := CheckConnection(dav(StripSlashes(s.nextcloudUrl.s) + DavPath, s.login, s.password)).value;
              GetValues(SetValues(s, cfg, dav).value).status == StatusOf(c).0
              && (c.SyncError? && c.description != "" ==> GetValues(SetValues(s, cfg, dav).value).error == Str(c.description))
              && (c.Connected? || c.description == "" ==> GetValues(SetValues(s, cfg, dav).value).error == Bool(false))
  {
    SetValuesUrl(s, cfg, dav);
  }

  /** The URL read back never starts or ends with `/`, and saving it again
      stores the same text. A URL of slashes only reads back as `False`, and
      saving that again raises on `.strip`. */
  lemma StoredUrlIsNormal(s: Settings, cfg: Config, dav: DavClient)
    requires SetValues(s, cfg, dav).Success?
    ensures var url := GetValues(SetValues(s, cfg, dav).value).nextcloudUrl;
            url.Str? ==> NoEdgeSlash(url.s)
    ensures var again := s.(nextcloudUrl := GetValues(SetValues(s, cfg, dav).value).nextcloudUrl);
            SetValues(again, cfg, dav).Success? ==>
              GetParam(SetValues(again, cfg, dav).value, UrlKey) == GetParam(SetValues(s, cfg, dav).value, UrlKey)
    ensures var again := s.(nextcloudUrl := GetValues(SetValues(s, cfg, dav).value).nextcloudUrl);
            AllSlashes(s.nextcloudUrl.s) ==> SetValues(again, cfg, dav).Failure?
  {
    var u := s.nextcloudUrl.s;
    var again := s.(nextcloudUrl := GetValues(SetValues(s, cfg, dav).value).nextcloudUrl);
    SetValuesUrl(s, cfg, dav);
    if !AllSlashes(u) {
      StripIdempotent(u);
      assert again.nextcloudUrl == Str(StripSlashes(u));
      if SetValues(again, cfg, dav).Success? {
        SetValuesUrl(again, cfg, dav);
        StripEmptyIff(StripSlashes(u));
      }
    }
  }
}

=== FILE: nc_calendar.dfy ===
/** The `create` override of `nc.calendar`: a calendar created outside the
    sync belongs to the user creating it. */
module NcCalendar {
  import opened Values
  import CalendarEvent

  const OwnerField := "user_id"

  /** The values `create` passes on to the ORM; `currentUser` is the id of
      `self.env.user`. */
  function Create(vals: Dict, context: Dict, currentUser: int): (r: Dict)
    ensures !CalendarEvent.InSync(context) ==> OwnerField in r && r[OwnerField] == Int(currentUser)
    ensures CalendarEvent.InSync(context) ==> r == vals
    ensures r.Keys == vals.Keys + (if CalendarEvent.InSync(context) then {} else {OwnerField})
    ensures forall k :: k in vals && k != OwnerField ==> r[k] == vals[k]
  {
    if CalendarEvent.InSync(context) then vals else vals[OwnerField := Int(currentUser)]
  }

  /** A calendar gets an owner other than the creating user only through the
      sync, and then it is the owner the caller gave. */
  lemma OtherOwnerOnlyFromSync(vals: Dict, context: Dict, currentUser: int)
    requires OwnerField in Create(vals, context, currentUser)
    requires Create(vals, context, currentUser)[OwnerField] != Int(currentUser)
    ensures CalendarEvent.InSync(context)
    ensures OwnerField in vals && vals[OwnerField] == Create(vals, context, currentUser)[OwnerField]
  {
  }
}

=== FILE: nc_sync_user.dfy ===
/** `nc.sync.user` in the per-user calendar add-on: the per-user server URL
    is stored without surrounding slashes, and the user's DAV connection
    checks the global settings before it connects. */
module SyncUser {
  import opened Wrappers
  import opened Values
  import opened Text
  import opened ConfigKeys
  import opened Caldav

  /** The `create` and `write` overrides: a truthy `nextcloud_url` in `vals`
      is stored with every leading and trailing `/` removed; `.strip` on a
      value that is not text raises. */
  function NormaliseServerUrl(vals: Dict): (r: Result<Dict>)
    ensures !Truthy(Get(vals, "nextcloud_url")) ==> r == Success(vals)
    ensures r.Failure? <==> Truthy(Get(vals, "nextcloud_url")) && !vals["nextcloud_url"].Str?
    ensures Truthy(Get(vals, "nextcloud_url")) && vals["nextcloud_url"].Str? ==>
              r.Success? && Get(r.value, "nextcloud_url") == Str(StripSlashes(vals["nextcloud_url"].s))
    ensures r.Success? ==> r.value.Keys == vals.Keys
    ensures r.Success? ==> forall k :: k in vals && k != "nextcloud_url" ==> r.value[k] == vals[k]
    ensures r.Success? && Get(r.value, "nextcloud_url").Str? ==> NoEdgeSlash(r.value["nextcloud_url"].s)
  {
    var url := Get(vals, "nextcloud_url");
    if !Truthy(url) then Success(vals)
    else if url.Str? then Success(vals["nextcloud_url" := Str(StripSlashes(url.s))])
    else Failure("AttributeError: object has no attribute 'strip'")
  }

  /** Normalising values that were already normalised changes nothing. */
  lemma NormaliseServerUrlIdempotent(vals: Dict)
    requires NormaliseServerUrl(vals).Success?
    ensures NormaliseServerUrl(NormaliseServerUrl(vals).value) == NormaliseServerUrl(vals)
  {
    var url := Get(vals, "nextcloud_url");
    var r := NormaliseServerUrl(vals).value;
    if Truthy(url) {
      var stored := StripSlashes(url.s);
      assert r == vals["nextcloud_url" := Str(stored)];
      assert Get(r, "nextcloud_url") == Str(stored);
      StripIdempotent(url.s);
      if stored != [] {
        assert r["nextcloud_url" := Str(StripSlashes(stored))] == r;
      }
    }
  }

  /** The settings `get_user_connection` requires, in the order it checks
      them, with the label its error message uses. */
  const RequiredSettings: seq<(string, string)> := [
    (LoginKey, "Login"),
    (PasswordKey, "Password"),
    (UrlKey, "Server URL")
  ]

  function MissingMessage(setting: string): string {
    "Missing value for '" + setting + "' field in Settings/ Nextcloud"
  }

  /** The label of the first required setting that is unset or empty. */
  function FirstMissing(required: seq<(string, string)>, cfg: Config): (r: Option<string>)
    ensures r.None? <==> forall i :: 0 <= i < |required| ==> Truthy(GetParam(cfg, required[i].0))
    ensures r.Some? ==> exists i :: 0 <= i < |required| && !Truthy(GetParam(cfg, required[i].0))
                          && r.value == required[i].1
                          && forall j :: 0 <= j < i ==> Truthy(GetParam(cfg, required[j].0))
  {
    if required == [] then None
    else if !Truthy(GetParam(cfg, required[0].0)) then Some(required[0].1)
    else
      var r := FirstMissing(required[1..], cfg);
      assert forall i :: 1 <= i < |required| ==> required[i] == required[1..][i - 1];
      r
  }

  /** Over the three required settings, the first missing one is found in
      the order login, password, server URL. */
  lemma FirstMissingRequired(cfg: Config)
    ensures FirstMissing(RequiredSettings, cfg) ==
              if !Truthy(GetParam(cfg, LoginKey)) then Some("Login")
              else if !Truthy(GetParam(cfg, PasswordKey)) then Some("Password")
              else if !Truthy(GetParam(cfg, UrlKey)) then Some("Server URL")
              else None
  {
    var rest := RequiredSettings[1..];
    assert rest == [(PasswordKey, "Password"), (UrlKey, "Server URL")];
    assert rest[1..] == [(UrlKey, "Server URL")];
    assert rest[1..][1..] == [];
    assert FirstMissing(rest[1..][1..], cfg) == None;
    assert FirstMissing(rest[1..], cfg) ==
             if !Truthy(GetParam(cfg, UrlKey)) then Some("Server URL") else None;
    assert FirstMissing(rest, cfg) ==
             if !Truthy(GetParam(cfg, PasswordKey)) then Some("Password")
             else if !Truthy(GetParam(cfg, UrlKey)) then Some("Server URL") else None;
  }

  /** A successful connection: the DAV URL used and the principal. */
  datatype UserConnection = UserConnection(davUrl: string, principal: string)

  /** The DAV URL: the user's own server URL if set, the configured one
      otherwise, followed by the WebDAV path. With neither set, adding the
      path to `False` raises; the required-settings check rules that out
      before the URL is built. */
  function UserDavUrl(userUrl: string, cfg: Config): (r: string)
    requires userUrl != [] || Truthy(GetParam(cfg, UrlKey))
    ensures userUrl != [] ==> r == userUrl + DavPath
    ensures userUrl == [] ==> r == cfg[UrlKey] + DavPath
  {
    (if userUrl != [] then userUrl else GetParam(cfg, UrlKey).s) + DavPath
  }

  /** `get_user_connection`: raises naming the first missing setting among
      login, password and server URL; otherwise tests the DAV URL with the
      user's own credentials and raises `<error name>: <description>` when
      the test returns an error record. */
  function GetUserConnection(cfg: Config, userUrl: string, userName: Value, password: Value,
                             dav: DavClient, errorName: string -> string): (r: Result<UserConnection>)
    ensures !Truthy(GetParam(cfg, LoginKey)) ==> r == Failure(MissingMessage("Login"))
    ensures Truthy(GetParam(cfg, LoginKey)) && !Truthy(GetParam(cfg, PasswordKey)) ==>
              r == Failure(MissingMessage("Password"))
    ensures (Truthy(GetParam(cfg, LoginKey)) && Truthy(GetParam(cfg, PasswordKey))
             && !Truthy(GetParam(cfg, UrlKey))) ==> r == Failure(MissingMessage("Server URL"))
    ensures r.Success? ==>
              && Truthy(GetParam(cfg, LoginKey)) && Truthy(GetParam(cfg, PasswordKey)) && Truthy(GetParam(cfg, UrlKey))
              && r.value.davUrl == UserDavUrl(userUrl, cfg)
              && dav(r.value.davUrl, userName, password) == Principal(r.value.principal)
    ensures Truthy(GetParam(cfg, LoginKey)) && Truthy(GetParam(cfg, PasswordKey)) && Truthy(GetParam(cfg, UrlKey)) ==>
              match CheckConnection(dav(UserDavUrl(userUrl, cfg), userName, password))
              case Success(SyncError(ref, d)) => r == Failure(errorName(ref) + ": " + d)
              case Success(Connected(p)) => r == Success(UserConnection(UserDavUrl(userUrl, cfg), p))
              case Failure(e) => r == Failure(e)
  {
    FirstMissingRequired(cfg);
    match FirstMissing(RequiredSettings, cfg)
    case Some(setting) => Failure(MissingMessage(setting))
    case None =>
      var url := UserDavUrl(userUrl, cfg);
      match CheckConnection(dav(url, userName, password))
      case Failure(e) => Failure(e)
      case Success(SyncError(ref, d)) => Failure(errorName(ref) + ": " + d)
      case Success(Connected(p)) => Success(UserConnection(url, p))
  }
}

=== FILE: nextcloud_base.dfy ===
/** `nextcloud.base`: request credentials and URL construction for the
    Nextcloud OCS API. */
module NextcloudBase {
  import opened Values

  /** The connector's fields the helpers read. */
  datatype Connector = Connector(hostname: Value, username: Value, password: Value, jsonOutput: Value)

  /** Headers for GET and POST requests and the basic-auth pair. */
  datatype AuthData = AuthData(getHeaders: map<string, string>, postHeaders: map<string, string>, auth: (Value, Value))

  const ApiRequestHeader := "OCS-APIRequest"
  const ContentTypeHeader := "Content-Type"
  const FormContentType := "application/x-www-form-urlencoded"
  const JsonSuffix := "?format=json"

  /** `get_auth_data`: GET requests carry only the OCS API header, POST
      requests add the form content type, and the auth pair is the
      connector's username and password. */
  function GetAuthData(c: Connector): (r: AuthData)
    ensures r.auth == (c.username, c.password)
    ensures r.getHeaders.Keys == {ApiRequestHeader} && r.getHeaders[ApiRequestHeader] == "true"
    ensures r.postHeaders.Keys == r.getHeaders.Keys + {ContentTypeHeader}
    ensures forall h :: h in r.getHeaders ==> r.postHeaders[h] == r.getHeaders[h]
    ensures r.postHeaders[ContentTypeHeader] == FormContentType
  {
    AuthData(map[ApiRequestHeader := "true"],
             map[ApiRequestHeader := "true", ContentTypeHeader := FormContentType],
             (c.username, c.password))
  }

  /** The `additional_url` normalisation: a non-empty path that does not start
      with `/` gets one `/` in front; anything else is used as given. */
  function WithLeadingSlash(a: string): (r: string)
    ensures a == [] || a[0] == '/' ==> r == a
    ensures a != [] && a[0] != '/' ==> r == "/" + a
  {
    if a != [] && a[0] != '/' then "/" + a else a
  }

  /** The normalised path is empty or starts with exactly the slashes the
      caller wrote, at least one; normalising again changes nothing. */
  lemma WithLeadingSlashShape(a: string)
    ensures WithLeadingSlash(a) == [] <==> a == []
    ensures a != [] ==> WithLeadingSlash(a)[0] == '/'
    ensures a != [] && a[0] != '/' ==> WithLeadingSlash(a)[1..] == a && WithLeadingSlash(a)[1] != '/'
    ensures WithLeadingSlash(WithLeadingSlash(a)) == WithLeadingSlash(a)
  {
  }

  /** `"{base_url}{api_url}{additional_url}".format(...)`. */
  function Location(base: Value, api: string, additional: string): (r: string)
    ensures Render(base) <= r
    ensures r == Render(base) + api + WithLeadingSlash(additional)
  {
    Render(base) + api + WithLeadingSlash(additional)
  }

  /** `get_full_url`: the hostname, the API path and the normalised additional
      path, followed by `?format=json` exactly when `json_output` is set. */
  function GetFullUrl(c: Connector, additional: string, api: string): (r: string)
    ensures Render(c.hostname) <= r
    ensures Truthy(c.jsonOutput) ==> r == Location(c.hostname, api, additional) + JsonSuffix
    ensures !Truthy(c.jsonOutput) ==> r == Location(c.hostname, api, additional)
  {
    var res := Location(c.hostname, api, additional);
    if Truthy(c.jsonOutput) then res + JsonSuffix else res
  }

  /** The JSON suffix is the only difference `json_output` makes: it is
      appended once, after the whole path. */
  lemma JsonSuffixAppendedOnce(c: Connector, additional: string, api: string)
    ensures GetFullUrl(c.(jsonOutput := Bool(true)), additional, api)
         == GetFullUrl(c.(jsonOutput := Bool(false)), additional, api) + JsonSuffix
    ensures GetFullUrl(c, additional, api)
         == if Truthy(c.jsonOutput) then GetFullUrl(c.(jsonOutput := Bool(true)), additional, api)
            else GetFullUrl(c.(jsonOutput := Bool(false)), additional, api)
  {
  }
}

=== FILE: per_user_base.dfy ===
/** The `nextcloud.base` overrides of the per-user calendar add-on: the
    request credentials and the server URL may come from the context. */
module PerUserBase {
  import opened Values
  import opened ConfigKeys
  import Base = NextcloudBase

  /** `get_auth_data` override: the base headers, with the auth pair replaced
      by the context's login and password when the context holds a truthy
      `nextcloud_login`. */
  function GetAuthData(c: Base.Connector, context: Dict): (r: Base.AuthData)
    ensures r.getHeaders == Base.GetAuthData(c).getHeaders
    ensures r.postHeaders == Base.GetAuthData(c).postHeaders
    ensures Truthy(Get(context, "nextcloud_login")) ==>
              r.auth == (Get(context, "nextcloud_login"), Get(context, "nextcloud_password"))
    ensures !Truthy(Get(context, "nextcloud_login")) ==> r == Base.GetAuthData(c)
  {
    var data := Base.GetAuthData(c);
    if Truthy(Get(context, "nextcloud_login")) then
      data.(auth := (Get(context, "nextcloud_login"), Get(context, "nextcloud_password")))
    else data
  }

  /** The server the override targets: the context's `base_url` when truthy,
      otherwise the configured server URL (`False` when unset). */
  function ServerOf(context: Dict, cfg: Config): (r: Value)
    ensures Truthy(Get(context, "base_url")) ==> r == Get(context, "base_url")
    ensures !Truthy(Get(context, "base_url")) ==> r == GetParam(cfg, UrlKey)
  {
    if Truthy(Get(context, "base_url")) then Get(context, "base_url") else GetParam(cfg, UrlKey)
  }

  /** `get_full_url` override: server, API path and normalised additional
      path, always followed by `?format=json`. */
  function GetFullUrl(context: Dict, cfg: Config, additional: string, api: string): (r: string)
    ensures Render(ServerOf(context, cfg)) <= r
    ensures r == Base.Location(ServerOf(context, cfg), api, additional) + Base.JsonSuffix
  {
    Base.Location(ServerOf(context, cfg), api, additional) + Base.JsonSuffix
  }

  /** Pointed at the connector's own host, the override builds the URL the
      base class builds for a JSON connector. */
  lemma FullUrlAgreesWithBase(c: Base.Connector, context: Dict, cfg: Config, additional: string, api: string)
    requires Truthy(c.jsonOutput)
    requires Truthy(Get(context, "base_url")) && Get(context, "base_url") == c.hostname
    ensures GetFullUrl(context, cfg, additional, api) == Base.GetFullUrl(c, additional, api)
  {
  }

  /** Without a `base_url` in the context, the URL starts with the configured
      server URL; when none is configured, or it is stored empty, `get_param`
      gives `False` and Python's `format` writes `False`. */
  lemma FullUrlFallsBackToSettings(context: Dict, cfg: Config, additional: string, api: string)
    requires !Truthy(Get(context, "base_url"))
    ensures UrlKey in cfg && cfg[UrlKey] != "" ==> cfg[UrlKey] <= GetFullUrl(context, cfg, additional, api)
    ensures UrlKey !in cfg || cfg[UrlKey] == "" ==> "False" <= GetFullUrl(context, cfg, additional, api)
  {
  }
}

=== FILE: seqs.dfy ===
/** Sequence helpers standing for Python list comprehensions. */
module Seqs {

  /** `[x for x in xs if p(x)]`: the elements satisfying `p`, in order. */
  function Filter<T(!new)>(xs: seq<T>, p: T -> bool): (r: seq<T>)
    ensures |r| <= |xs|
    ensures forall x :: x in r <==> x in xs && p(x)
    decreases |xs|
  {
    if xs == [] then []
    else Filter(xs[..|xs| - 1], p) + (if p(xs[|xs| - 1]) then [xs[|xs| - 1]] else [])
  }

  /** Filtering keeps everything exactly when every element passes. */
  lemma {:induction false} FilterAll<T(!new)>(xs: seq<T>, p: T -> bool)
    ensures Filter(xs, p) == xs <==> forall x :: x in xs ==> p(x)
    decreases |xs|
  {
    if xs != [] {
      var init := xs[..|xs| - 1];
      var last := xs[|xs| - 1];
      FilterAll(init, p);
      assert xs == init + [last];
      assert |Filter(init, p)| <= |init| < |xs|;
    }
  }

  /** `[x for x in xs]`, element-wise image. */
  function Map<T, U>(xs: seq<T>, f: T -> U): (r: seq<U>)
    ensures |r| == |xs|
    ensures forall i :: 0 <= i < |xs| ==> r[i] == f(xs[i])
  {
    seq(|xs|, i requires 0 <= i < |xs| => f(xs[i]))
  }
}

=== FILE: sync_log.dfy ===
/** `nc.sync.log`: the duration split, the comparison and matching of Odoo
    and Nextcloud users, and the log lines `log_event` writes. The ORM,
    `get_users` and the clock are parameters. */
module SyncLog {
  import opened Wrappers
  import opened Values
  import opened Text
  import opened Seqs
  import opened ConfigKeys
  import opened Caldav

  // ---------------------------------------------------------------------
  // get_time_diff

  const MicrosPerSecond := 1000000
  const SecondsPerDay := 86400

  /** A `datetime.timedelta` in Python's normal form. */
  datatype TimeDelta = TimeDelta(days: int, seconds: nat, microseconds: nat)

  /** Whole microseconds a normalised delta stands for. */
  function TotalMicros(d: TimeDelta): int {
    (d.days * SecondsPerDay + d.seconds) * MicrosPerSecond + d.microseconds
  }

  predicate Normal(d: TimeDelta) {
    d.seconds < SecondsPerDay && d.microseconds < MicrosPerSecond
  }

  /** `date_to - date_from`, the instants given in microseconds. */
  function Delta(from: int, to: int): (d: TimeDelta)
    ensures Normal(d)
    ensures TotalMicros(d) == to - from
  {
    var us := to - from;
    var secs := us / MicrosPerSecond;
    TimeDelta(secs / SecondsPerDay, secs % SecondsPerDay, us % MicrosPerSecond)
  }

  /** The normal form is unique, so `Delta` is the timedelta Python builds. */
  lemma DeltaUnique(from: int, to: int, d: TimeDelta)
    requires Normal(d) && TotalMicros(d) == to - from
    ensures d == Delta(from, to)
  {
    var e := Delta(from, to);
    var a := d.days * SecondsPerDay + d.seconds;
    var b := e.days * SecondsPerDay + e.seconds;
    assert a * MicrosPerSecond + d.microseconds == b * MicrosPerSecond + e.microseconds;
    assert a == b;
    assert d.days == e.days;
  }

  /** `get_time_diff(date_from, date_to)`: hours, minutes and seconds of the
      difference's `seconds` component; `now` stands for `datetime.now()`,
      used when no end is given. Whole days are dropped. */
  function GetTimeDiff(from: int, to: Option<int>, now: int): (r: (nat, nat, nat))
    ensures r.0 < 24 && r.1 < 60 && r.2 < 60
    ensures r.0 * 3600 + r.1 * 60 + r.2 == Delta(from, to.GetOr(now)).seconds
  {
    var seconds := Delta(from, to.GetOr(now)).seconds;
    var hours := seconds / 3600;
    var remainder := seconds % 3600;
    (hours, remainder / 60, remainder % 60)
  }

  /** Adding whole days to the end instant does not change the split. */
  lemma WholeDaysDiscarded(from: int, to: int, now: int, days: int)
    ensures GetTimeDiff(from, Some(to + days * SecondsPerDay * MicrosPerSecond), now)
         == GetTimeDiff(from, Some(to), now)
  {
    var d := Delta(from, to);
    var shifted := TimeDelta(d.days + days, d.seconds, d.microseconds);
    assert TotalMicros(shifted) == TotalMicros(d) + days * SecondsPerDay * MicrosPerSecond;
    DeltaUnique(from, to + days * SecondsPerDay * MicrosPerSecond, shifted);
  }

  /** A span shorter than a day is split exactly into its whole seconds. */
  lemma ShortSpanExact(from: int, to: int, now: int)
    requires 0 <= to - from < SecondsPerDay * MicrosPerSecond
    ensures var r := GetTimeDiff(from, Some(to), now);
            r.0 * 3600 + r.1 * 60 + r.2 == (to - from) / MicrosPerSecond
  {
    var secs := (to - from) / MicrosPerSecond;
    DeltaUnique(from, to, TimeDelta(0, secs, (to - from) % MicrosPerSecond));
  }

  /** An end one second before the start reads as 23:59:59. */
  lemma OneSecondEarly(from: int, now: int)
    ensures GetTimeDiff(from, Some(from - MicrosPerSecond), now) == (23, 59, 59)
  {
    DeltaUnique(from, from - MicrosPerSecond, TimeDelta(-1, SecondsPerDay - 1, 0));
  }

  // ---------------------------------------------------------------------
  // Users

  /** A user as the OCS users API returns it; `None` is JSON `null`. */
  datatype NcUser = NcUser(id: string, email: Option<string>, displayName: Option<string>)

  /** An `nc.sync.user` row; `None` stands for an unset (`False`) field. */
  datatype OdooUser = OdooUser(recId: int, name: Option<string>, userName: Option<string>)

  /** A text that is set and non-empty, so truthy in Python. */
  predicate Present(o: Option<string>) {
    o.Some? && o.value != []
  }

  /** `[x for x in xs if x]` over optional texts. */
  function PresentValues(xs: seq<Option<string>>): (r: seq<string>)
    ensures forall s :: s in r <==> Some(s) in xs && s != []
    decreases |xs|
  {
    if xs == [] then []
    else PresentValues(xs[..|xs| - 1]) + (if Present(xs[|xs| - 1]) then [xs[|xs| - 1].value] else [])
  }

  /** The ids of all Nextcloud users followed by their emails. */
  function IdsAndEmails(ncs: seq<NcUser>): seq<Option<string>> {
    Map(ncs, (x: NcUser) => Some(x.id)) + Map(ncs, (x: NcUser) => x.email)
  }

  /** An Odoo user whose `user_name` is not among the Nextcloud ids and
      emails; an unset `user_name` (`False`) is never among them. */
  predicate NotInNextcloud(o: OdooUser, ncs: seq<NcUser>) {
    o.userName.None? || o.userName !in IdsAndEmails(ncs)
  }

  /** The comparison is exact and case-sensitive: a user name is "not in
      Nextcloud" iff no Nextcloud id or email is that very text. */
  lemma NotInNextcloudExact(o: OdooUser, ncs: seq<NcUser>)
    requires o.userName.Some?
    ensures NotInNextcloud(o, ncs) <==>
              forall x :: x in ncs ==> x.id != o.userName.value && x.email != o.userName
  {
    var all := IdsAndEmails(ncs);
    if !NotInNextcloud(o, ncs) {
      var k :| 0 <= k < |all| && all[k] == o.userName;
      if k < |ncs| {
        assert ncs[k].id == o.userName.value;
      } else {
        assert ncs[k - |ncs|].email == o.userName;
      }
    } else {
      forall x | x in ncs ensures x.id != o.userName.value && x.email != o.userName {
        var k :| 0 <= k < |ncs| && ncs[k] == x;
        assert all[k] == Some(x.id);
        assert all[|ncs| + k] == x.email;
      }
    }
  }

  predicate AllNamed(odoos: seq<OdooUser>) {
    forall o :: o in odoos ==> o.userName.Some?
  }

  /** The lower-cased Odoo user names. */
  function UserNames(odoos: seq<OdooUser>): (r: seq<string>)
    requires AllNamed(odoos)
    ensures |r| == |odoos|
    ensures forall i :: 0 <= i < |odoos| ==> r[i] == Lower(odoos[i].userName.value)
  {
    Map(odoos, (o: OdooUser) => Lower(o.userName.GetOr([])))
  }

  /** Whether the loop over Nextcloud users reports `x` as "not in Odoo", as
      the code is written: the `else` belongs to the outer test, so a user
      whose email is missing or does match is reported, and one whose email
      does not match is reported only with a set, unmatched display name. */
  predicate ReportedNotInOdoo(x: NcUser, usernames: seq<string>) {
    if Present(x.email) && Lower(x.email.value) !in usernames then
      Present(x.displayName) && Lower(x.displayName.value) !in usernames
    else true
  }

  /** Whether `x` is reported "not in Odoo" when the test does what the log
      message says: neither a set email nor a set display name matches an
      Odoo user name, ignoring case. */
  predicate NotInOdoo(x: NcUser, usernames: seq<string>) {
    !(Present(x.email) && Lower(x.email.value) in usernames)
    && !(Present(x.displayName) && Lower(x.displayName.value) in usernames)
  }

  /** The texts a Nextcloud user is matched on: its lower-cased email and id,
      each only when set. */
  function UserList(x: NcUser): seq<string> {
    (if Present(x.email) then [Lower(x.email.value)] else [])
    + (if x.id != [] then [Lower(x.id)] else [])
  }

  /** The matching rule: the Odoo user name, lower-cased, is one of the
      Nextcloud user's lower-cased email or id. */
  predicate Matches(o: OdooUser, x: NcUser) {
    o.userName.Some? && Lower(o.userName.value) in UserList(x)
  }

  /** Matching ignores case and needs a set email or a non-empty id equal to
      the user name. */
  lemma MatchesIff(o: OdooUser, x: NcUser)
    requires o.userName.Some?
    ensures Matches(o, x) <==>
              (Present(x.email) && Lower(x.email.value) == Lower(o.userName.value))
              || (x.id != [] && Lower(x.id) == Lower(o.userName.value))
  {
  }

  /** The corrected "not in Odoo" test never reports a Nextcloud user that an
      Odoo user matches by email. */
  lemma NotInOdooSpareMatchedUsers(odoos: seq<OdooUser>, x: NcUser, i: nat)
    requires AllNamed(odoos) && i < |odoos|
    requires Present(x.email) && Lower(x.email.value) == Lower(odoos[i].userName.value)
    ensures !NotInOdoo(x, UserNames(odoos))
  {
    assert UserNames(odoos)[i] == Lower(x.email.value);
  }

  /** The corrected test reports a user exactly when no set email or display
      name of it is an Odoo user name. */
  lemma NotInOdooIff(x: NcUser, usernames: seq<string>)
    ensures NotInOdoo(x, usernames) <==>
              forall u :: u in usernames ==>
                (!Present(x.email) || Lower(x.email.value) != u)
                && (!Present(x.displayName) || Lower(x.displayName.value) != u)
  {
  }

  /** As written, a Nextcloud user whose email is an Odoo user name is still
      reported as "not in Odoo". */
  lemma ReportedNotInOdooCounterexample()
    ensures var odoos := [OdooUser(7, Some("Alice"), Some("alice@x"))];
            var x := NcUser("alice", Some("alice@x"), Some("Alice"));
            Lower(x.email.value) == Lower(odoos[0].userName.value)
            && ReportedNotInOdoo(x, UserNames(odoos))
            && !NotInOdoo(x, UserNames(odoos))
  {
    var odoos := [OdooUser(7, Some("Alice"), Some("alice@x"))];
    assert Lower("alice@x") == "alice@x";
    assert UserNames(odoos) == ["alice@x"];
  }

  /** The two tests agree exactly on users with a set, unmatched email. */
  lemma ReportedAgreesWhenEmailUnmatched(x: NcUser, usernames: seq<string>)
    requires Present(x.email) && Lower(x.email.value) !in usernames
    ensures ReportedNotInOdoo(x, usernames) <==> (NotInOdoo(x, usernames) && Present(x.displayName))
  {
  }

  // ---------------------------------------------------------------------
  // Matching

  /** One match: `nextcloud_user_id` of `user` is written with `ncId`. */
  datatype Link = Link(user: OdooUser, ncId: string)

  /** The matches of one Odoo user, in Nextcloud order. */
  function LinksFor(o: OdooUser, ncs: seq<NcUser>): (r: seq<Link>)
    ensures forall l :: l in r ==> l.user == o
    decreases |ncs|
  {
    if ncs == [] then []
    else
      var x := ncs[|ncs| - 1];
      LinksFor(o, ncs[..|ncs| - 1]) + (if Matches(o, x) then [Link(o, x.id)] else [])
  }

  /** All matches: Odoo users outer, Nextcloud users inner. */
  function Links(odoos: seq<OdooUser>, ncs: seq<NcUser>): seq<Link>
    decreases |odoos|
  {
    if odoos == [] then [] else Links(odoos[..|odoos| - 1], ncs) + LinksFor(odoos[|odoos| - 1], ncs)
  }

  /** Some Nextcloud user with id `id` matches `o`. */
  ghost predicate MatchedBy(o: OdooUser, ncs: seq<NcUser>, id: string) {
    exists x :: x in ncs && x.id == id && Matches(o, x)
  }

  lemma {:induction false} LinksForMembership(o: OdooUser, ncs: seq<NcUser>, id: string)
    ensures Link(o, id) in LinksFor(o, ncs) <==> MatchedBy(o, ncs, id)
    decreases |ncs|
  {
    if ncs != [] {
      var init := ncs[..|ncs| - 1];
      var x := ncs[|ncs| - 1];
      LinksForMembership(o, init, id);
      assert ncs == init + [x];
      var tail := if Matches(o, x) then [Link(o, x.id)] else [];
      assert LinksFor(o, ncs) == LinksFor(o, init) + tail;
      if MatchedBy(o, ncs, id) {
        var y :| y in ncs && y.id == id && Matches(o, y);
        if y != x {
          assert y in init;
          assert MatchedBy(o, init, id);
        } else {
          assert Link(o, id) in tail;
        }
      } else {
        assert !MatchedBy(o, init, id);
        assert Link(o, id) !in tail;
      }
    }
  }

  /** A link is recorded exactly for a listed Odoo user and a Nextcloud user
      it matches. */
  lemma {:induction false} LinksMembership(odoos: seq<OdooUser>, ncs: seq<NcUser>, l: Link)
    ensures l in Links(odoos, ncs) <==> l.user in odoos && MatchedBy(l.user, ncs, l.ncId)
    decreases |odoos|
  {
    if odoos != [] {
      var init := odoos[..|odoos| - 1];
      var o := odoos[|odoos| - 1];
      LinksMembership(init, ncs, l);
      assert odoos == init + [o];
      assert Links(odoos, ncs) == Links(init, ncs) + LinksFor(o, ncs);
      assert l.user in odoos <==> l.user in init || l.user == o;
      if l.user == o {
        assert l == Link(o, l.ncId);
        LinksForMembership(o, ncs, l.ncId);
      } else {
        assert l !in LinksFor(o, ncs);
      }
    }
  }

  /** The matched Odoo users, one entry per match. */
  function MatchedUsers(links: seq<Link>): (r: seq<OdooUser>)
    ensures |r| == |links|
  {
    Map(links, (l: Link) => l.user)
  }

  /** The nested loop of `check_and_log_users` that collects matches. */
  method MatchUsers(odoos: seq<OdooUser>, ncs: seq<NcUser>) returns (links: seq<Link>)
    ensures links == Links(odoos, ncs)
  {
    links := [];
    var i := 0;
    while i < |odoos|
      invariant 0 <= i <= |odoos|
      invariant links == Links(odoos[..i], ncs)
    {
      var o := odoos[i];
      var j := 0;
      var found: seq<Link> := [];
      while j < |ncs|
        invariant 0 <= j <= |ncs|
        invariant found == LinksFor(o, ncs[..j])
      {
        var x := ncs[j];
        if Matches(o, x) {
          found := found + [Link(o, x.id)];
        }
        assert ncs[..j + 1][..j] == ncs[..j];
        j := j + 1;
      }
      assert ncs[..j] == ncs;
      assert odoos[..i + 1][..i] == odoos[..i];
      links := links + found;
      i := i + 1;
    }
    assert odoos[..i] == odoos;
  }

  // ---------------------------------------------------------------------
  // Log lines

  /** An `nc.sync.log.line`; `severity` holds the ORM default `'info'` when
      none is given, and `errorCode` the `nc.sync.error` reference. */
  datatype LogLine = LogLine(
    logId: int,
    operationType: Value,
    severity: Value,
    description: Option<Value>,
    errorCode: Option<string>,
    dataSend: Option<string>)

  function InfoLine(logId: int, text: string): LogLine {
    LogLine(logId, Str("read"), Str("info"), Some(Str(text)), None, None)
  }

  const OdooNotInNcText := "Compare Odoo users with Nextcloud users\n\t\tOdoo users not in Nextcloud: "
  const NcNotInOdooText := "Compare Nextcloud users with Odoo users\n\tNextcloud users not in Odoo: "
  const CountText := "Number of users to sync: "

  /** What `check_and_log_users` hands back: the matched Odoo users, the
      `nextcloud_user_id` writes in order, and the lines it logged. */
  datatype UserCheck = UserCheck(matched: seq<OdooUser>, links: seq<Link>, lines: seq<LogLine>)

  /** The set names of the Odoo users missing in Nextcloud, in order. */
  function OdooNamesNotInNextcloud(odoos: seq<OdooUser>, ncs: seq<NcUser>): (r: seq<string>)
    ensures forall s :: s in r <==> s != [] && exists o :: o in odoos && NotInNextcloud(o, ncs) && o.name == Some(s)
  {
    var missing := Filter(odoos, (o: OdooUser) => NotInNextcloud(o, ncs));
    var names := Map(missing, (o: OdooUser) => o.name);
    assert forall s :: Some(s) in names <==> exists o :: o in missing && o.name == Some(s) by {
      forall s ensures Some(s) in names <==> exists o :: o in missing && o.name == Some(s) {
        if Some(s) in names {
          var k :| 0 <= k < |names| && names[k] == Some(s);
          assert missing[k] in missing;
        }
        if exists o :: o in missing && o.name == Some(s) {
          var o :| o in missing && o.name == Some(s);
          var k :| 0 <= k < |missing| && missing[k] == o;
          assert names[k] == Some(s);
        }
      }
    }
    PresentValues(names)
  }

  /** The test that decides which Nextcloud users are reported as missing in
      Odoo, given the lower-cased Odoo user names. */
  type ReportRule = (NcUser, seq<string>) -> bool

  /** The set display names of the Nextcloud users `rule` reports as missing
      in Odoo, in order. */
  function NcNamesNotInOdoo(ncs: seq<NcUser>, usernames: seq<string>, rule: ReportRule): (r: seq<string>)
    ensures forall s :: s in r <==>
              s != [] && exists x :: x in ncs && rule(x, usernames) && x.displayName == Some(s)
  {
    var reported := Filter(ncs, (x: NcUser) => rule(x, usernames));
    var names := Map(reported, (x: NcUser) => x.displayName);
    assert forall s :: Some(s) in names <==> exists x :: x in reported && x.displayName == Some(s) by {
      forall s ensures Some(s) in names <==> exists x :: x in reported && x.displayName == Some(s) {
        if Some(s) in names {
          var k :| 0 <= k < |names| && names[k] == Some(s);
          assert reported[k] in reported;
        }
        if exists x :: x in reported && x.displayName == Some(s) {
          var x :| x in reported && x.displayName == Some(s);
          var k :| 0 <= k < |reported| && reported[k] == x;
          assert names[k] == Some(s);
        }
      }
    }
    PresentValues(names)
  }

  /** The line listing Odoo users missing in Nextcloud, logged iff there is
      such a user. */
  function OdooComparison(odoos: seq<OdooUser>, ncs: seq<NcUser>, logId: int): (r: seq<LogLine>)
    ensures |r| <= 1
    ensures r != [] <==> exists o :: o in odoos && NotInNextcloud(o, ncs)
    ensures r != [] ==> r[0] == InfoLine(logId, OdooNotInNcText + Join(", ", OdooNamesNotInNextcloud(odoos, ncs)))
  {
    var missing := Filter(odoos, (o: OdooUser) => NotInNextcloud(o, ncs));
    if missing == [] then []
    else
      assert missing[0] in missing;
      [InfoLine(logId, OdooNotInNcText + Join(", ", OdooNamesNotInNextcloud(odoos, ncs)))]
  }

  /** The line listing Nextcloud users `rule` reports as missing in Odoo,
      logged iff one is reported. */
  function NcComparison(ncs: seq<NcUser>, usernames: seq<string>, rule: ReportRule, logId: int): (r: seq<LogLine>)
    ensures |r| <= 1
    ensures r != [] <==> exists x :: x in ncs && rule(x, usernames)
    ensures r != [] ==> r[0] == InfoLine(logId, NcNotInOdooText + Join(", ", NcNamesNotInOdoo(ncs, usernames, rule)))
  {
    var reported := Filter(ncs, (x: NcUser) => rule(x, usernames));
    if reported == [] then []
    else
      assert reported[0] in reported;
      [InfoLine(logId, NcNotInOdooText + Join(", ", NcNamesNotInOdoo(ncs, usernames, rule)))]
  }

  /** The comparison and matching of `check_and_log_users`, with `rule`
      deciding which Nextcloud users are reported as missing in Odoo.
      Lower-casing an unset user name raises before anything is logged. */
  function CheckUsers(odoos: seq<OdooUser>, ncs: seq<NcUser>, rule: ReportRule, logId: int): (r: Result<UserCheck>)
    ensures r.Failure? <==> !AllNamed(odoos)
    ensures r.Success? ==> r.value.matched == MatchedUsers(r.value.links) && r.value.links == Links(odoos, ncs)
    ensures r.Success? ==>
              r.value.lines == OdooComparison(odoos, ncs, logId) + NcComparison(ncs, UserNames(odoos), rule, logId)
                               + [InfoLine(logId, CountText + NatToString(|r.value.matched|))]
  {
    if !AllNamed(odoos) then Failure("AttributeError: 'bool' object has no attribute 'lower'")
    else
      var links := Links(odoos, ncs);
      var matched := MatchedUsers(links);
      Success(UserCheck(matched, links, OdooComparison(odoos, ncs, logId) + NcComparison(ncs, UserNames(odoos), rule, logId)
                                        + [InfoLine(logId, CountText + NatToString(|matched|))]))
  }

  /** `check_and_log_users` as written, for the users with calendar sync
      (`odoos`) and the Nextcloud users `get_users` returned (`ncs`). */
  function CheckAndLogUsers(odoos: seq<OdooUser>, ncs: seq<NcUser>, logId: int): (r: Result<UserCheck>)
    ensures r.Failure? <==> !AllNamed(odoos)
    ensures r.Success? ==> r.value.matched == MatchedUsers(r.value.links) && r.value.links == Links(odoos, ncs)
    ensures r.Success? ==>
              r.value.lines == OdooComparison(odoos, ncs, logId) + NcComparison(ncs, UserNames(odoos), ReportedNotInOdoo, logId)
                               + [InfoLine(logId, CountText + NatToString(|r.value.matched|))]
  {
    CheckUsers(odoos, ncs, ReportedNotInOdoo, logId)
  }

  /** Every Nextcloud user's email is the user name of some Odoo user. */
  predicate AllMatchedByEmail(odoos: seq<OdooUser>, ncs: seq<NcUser>)
    requires AllNamed(odoos)
  {
    forall x :: x in ncs ==>
      exists i :: 0 <= i < |odoos| && Present(x.email) && Lower(x.email.value) == Lower(odoos[i].userName.value)
  }

  /** `check_and_log_users` with the "not in Odoo" test fixed. */
  function CheckAndLogUsersFixed(odoos: seq<OdooUser>, ncs: seq<NcUser>, logId: int): (r: Result<UserCheck>)
    ensures r.Failure? <==> !AllNamed(odoos)
    ensures r.Success? ==> r.value.matched == MatchedUsers(r.value.links) && r.value.links == Links(odoos, ncs)
    ensures r.Success? ==>
              r.value.lines == OdooComparison(odoos, ncs, logId) + NcComparison(ncs, UserNames(odoos), NotInOdoo, logId)
                               + [InfoLine(logId, CountText + NatToString(|r.value.matched|))]
  {
    CheckUsers(odoos, ncs, NotInOdoo, logId)
  }

  /** With the fix, when every Nextcloud user is matched by email no "not in
      Odoo" line is logged. */
  lemma FixedCheckSparesMatchedUsers(odoos: seq<OdooUser>, ncs: seq<NcUser>, logId: int)
    requires AllNamed(odoos) && AllMatchedByEmail(odoos, ncs)
    ensures var r := CheckAndLogUsersFixed(odoos, ncs, logId).value;
            r.lines == OdooComparison(odoos, ncs, logId) + [InfoLine(logId, CountText + NatToString(|r.matched|))]
  {
    forall x | x in ncs ensures !NotInOdoo(x, UserNames(odoos)) {
      var i :| 0 <= i < |odoos| && Present(x.email) && Lower(x.email.value) == Lower(odoos[i].userName.value);
      NotInOdooSpareMatchedUsers(odoos, x, i);
    }
    assert NcComparison(ncs, UserNames(odoos), NotInOdoo, logId) == [];
  }

  /** As written, the same input does log a "not in Odoo" line. */
  lemma CheckAndLogUsersCounterexample()
    ensures var odoos := [OdooUser(7, Some("Alice"), Some("alice@x"))];
            var ncs := [NcUser("alice", Some("alice@x"), Some("Alice"))];
            && AllMatchedByEmail(odoos, ncs)
            && NcComparison(ncs, UserNames(odoos), ReportedNotInOdoo, 1) != []
            && NcComparison(ncs, UserNames(odoos), NotInOdoo, 1) == []
  {
    var odoos := [OdooUser(7, Some("Alice"), Some("alice@x"))];
    var ncs := [NcUser("alice", Some("alice@x"), Some("Alice"))];
    ReportedNotInOdooCounterexample();
    assert ncs[0] in ncs;
    assert 0 <= 0 < |odoos|;
  }

  /** The logged count reads back as the number of matched users. */
  lemma UsersToSyncCount(odoos: seq<OdooUser>, ncs: seq<NcUser>, logId: int)
    requires AllNamed(odoos)
    ensures var r := CheckAndLogUsers(odoos, ncs, logId).value;
            var text := r.lines[|r.lines| - 1].description.value.s;
            |text| > |CountText| && text[..|CountText|] == CountText
            && IsDigits(text[|CountText|..]) && DigitsValue(text[|CountText|..]) == |r.matched|
  {
    var r := CheckAndLogUsers(odoos, ncs, logId).value;
    var digits := NatToString(|r.matched|);
    assert (CountText + digits)[|CountText|..] == digits;
    DecimalRoundTrip(|r.matched|);
  }

  // ---------------------------------------------------------------------
  // log_event

  /** The keyword parameters `log_event` reads; `None` when not passed. */
  datatype LogParams = LogParams(
    error: Option<Value>,
    message: Option<Value>,
    operationType: Option<Value>,
    severity: Option<Value>)

  /** The `nc.sync.log` record a `pre_sync` run creates. */
  datatype SyncLogRecord = SyncLogRecord(id: int, nextCloudUrl: string, odooUrl: Value, state: string)

  /** The result dictionary, the record created (in `pre_sync`), the lines
      logged and the `nextcloud_user_id` writes. */
  datatype LogResult = LogResult(
    resume: bool,
    matched: seq<OdooUser>,
    created: Option<SyncLogRecord>,
    lines: seq<LogLine>,
    links: seq<Link>)

  const ConnectionOkText := "Nextcloud connection test for Caldav: OK"
  const ConnectionErrorText := "Nextcloud connection test for Caldav: Error \n\t"

  /** The line of the CalDAV connection test in `pre_sync`. */
  function ConnectionLine(logId: int, ncUrl: string, username: Value, c: Connection): (l: LogLine)
    ensures l.operationType == Str("login")
    ensures l.dataSend == Some("url: " + ncUrl + ", username: " + Render(username) + ", password: *****")
    ensures c.Connected? <==> l.description == Some(Str(ConnectionOkText))
    ensures c.Connected? <==> l.errorCode.None?
  {
    var sent := Some("url: " + ncUrl + ", username: " + Render(username) + ", password: *****");
    match c
    case Connected(_) => LogLine(logId, Str("login"), Str("info"), Some(Str(ConnectionOkText)), None, sent)
    case SyncError(ref, d) =>
      assert (ConnectionErrorText + d)[38] == 'E' && ConnectionOkText[38] == 'O';
      LogLine(logId, Str("login"), Str("info"), Some(Str(ConnectionErrorText + d)), Some(ref), sent)
  }

  /** The description of a line outside `pre_sync`: the message itself in
      `text` mode; in `error` mode with a non-empty error text, that text
      prefixed by the message and a space when a message is given. */
  function Description(mode: string, p: LogParams): Option<Value> {
    var error := if p.error.Some? then Render(p.error.value) else "";
    if mode == "text" && p.message.Some? then Some(p.message.value)
    else if mode == "error" && error != [] then
      var prefix := if p.message.Some? then Render(p.message.value) + " " else "";
      Some(Str(prefix + error))
    else None
  }

  const StartLine := "Start Sync Process"

  /** The CalDAV connection test of `pre_sync`, run only when calendar sync is
      enabled; a test that raises propagates. */
  function ConnectionTest(cfg: Config, ncUrl: string, dav: DavClient): (r: Result<Option<Connection>>)
    ensures r.Failure? <==>
              Truthy(GetParam(cfg, EnableKey))
              && CheckConnection(dav(ncUrl, GetParam(cfg, LoginKey), GetParam(cfg, PasswordKey))).Failure?
    ensures r.Success? ==> (r.value.Some? <==> Truthy(GetParam(cfg, EnableKey)))
    ensures r.Success? && r.value.Some? ==>
              r.value.value == CheckConnection(dav(ncUrl, GetParam(cfg, LoginKey), GetParam(cfg, PasswordKey))).value
  {
    if Truthy(GetParam(cfg, EnableKey)) then
      match CheckConnection(dav(ncUrl, GetParam(cfg, LoginKey), GetParam(cfg, PasswordKey)))
      case Success(c) => Success(Some(c))
      case Failure(e) => Failure(e)
    else Success(None)
  }

  /** The connection test lets the user comparison go on: it was not run, or
      it did not return an error record. */
  predicate Resumes(test: Option<Connection>) {
    !(test.Some? && test.value.SyncError?)
  }

  /** The first lines of a `pre_sync` log: the start line, then the
      connection test's line when the test ran. */
  function Opening(cfg: Config, ncUrl: string, newId: int, test: Option<Connection>): (r: seq<LogLine>)
    ensures |r| == if test.Some? then 2 else 1
    ensures r[0].logId == newId && r[0].description == Some(Str(StartLine)) && r[0].dataSend.None?
    ensures test.Some? ==> r[1] == ConnectionLine(newId, ncUrl, GetParam(cfg, LoginKey), test.value)
  {
    [LogLine(newId, Str("login"), Str("info"), Some(Str(StartLine)), None, None)]
    + (if test.Some? then [ConnectionLine(newId, ncUrl, GetParam(cfg, LoginKey), test.value)] else [])
  }

  /** The `pre_sync` branch of `log_event` as its closing lines intend, once
      the connection test, if any, has returned `test`: the `connecting` log
      for the DAV URL `ncUrl` and its opening lines, followed by the user
      comparison while `resume` holds. */
  function PreSyncFixed(cfg: Config, ncUrl: string, newId: int, test: Option<Connection>,
                   odoos: seq<OdooUser>, ncs: seq<NcUser>): (r: Result<LogResult>)
    ensures r.Failure? <==> Resumes(test) && !AllNamed(odoos)
    ensures r.Success? ==>
              && r.value.created == Some(SyncLogRecord(newId, ncUrl, GetParam(cfg, BaseUrlKey), "connecting"))
              && r.value.resume == Resumes(test)
    ensures r.Success? && Resumes(test) ==>
              var u := CheckAndLogUsers(odoos, ncs, newId).value;
              r.value.matched == u.matched && r.value.links == u.links
              && r.value.lines == Opening(cfg, ncUrl, newId, test) + u.lines
    ensures r.Success? && !Resumes(test) ==>
              r.value.matched == [] && r.value.links == [] && r.value.lines == Opening(cfg, ncUrl, newId, test)
  {
    var record := SyncLogRecord(newId, ncUrl, GetParam(cfg, BaseUrlKey), "connecting");
    if Resumes(test) then
      match CheckAndLogUsers(odoos, ncs, newId)
      case Failure(e) => Failure(e)
      case Success(u) => Success(LogResult(true, u.matched, Some(record), Opening(cfg, ncUrl, newId, test) + u.lines, u.links))
    else Success(LogResult(false, [], Some(record), Opening(cfg, ncUrl, newId, test), []))
  }

  const UnboundRes := "UnboundLocalError: local variable 'res' referenced before assignment"

  /** The `pre_sync` branch as written. The line dictionary `res` is bound
      only when the connection test runs, yet `log_event` looks into it after
      both branches: with calendar sync disabled the call raises once the
      user comparison has run. A test that ran leaves the corrected branch
      unchanged. */
  function PreSync(cfg: Config, ncUrl: string, newId: int, test: Option<Connection>,
                   odoos: seq<OdooUser>, ncs: seq<NcUser>): (r: Result<LogResult>)
    ensures r.Failure? <==> test.None? || (Resumes(test) && !AllNamed(odoos))
    ensures test.None? && AllNamed(odoos) ==> r == Failure(UnboundRes)
    ensures test.Some? ==> r == PreSyncFixed(cfg, ncUrl, newId, test, odoos, ncs)
  {
    if test.None? then
      match CheckAndLogUsers(odoos, ncs, newId)
      case Failure(e) => Failure(e)
      case Success(_) => Failure(UnboundRes)
    else PreSyncFixed(cfg, ncUrl, newId, test, odoos, ncs)
  }

  /** The line `log_event` writes outside `pre_sync`, against the given log or
      else the first record of the recordset (which raises when empty). */
  function OtherModes(mode: string, logId: Option<int>, p: LogParams, selfIds: seq<int>): (r: Result<LogResult>)
    ensures r.Failure? <==> logId.None? && selfIds == []
    ensures r.Success? ==>
              && r.value.resume && r.value.matched == [] && r.value.created.None? && r.value.links == []
              && |r.value.lines| == 1
              && r.value.lines[0].logId == (if logId.Some? then logId.value else selfIds[0])
              && r.value.lines[0].operationType == p.operationType.GetOr(Str("read"))
              && r.value.lines[0].severity == p.severity.GetOr(Str("info"))
              && r.value.lines[0].description == Description(mode, p)
  {
    if logId.None? && selfIds == [] then Failure("IndexError: list index out of range")
    else
      var id := if logId.Some? then logId.value else selfIds[0];
      var line := LogLine(id, p.operationType.GetOr(Str("read")), p.severity.GetOr(Str("info")),
                          Description(mode, p), None, None);
      Success(LogResult(true, [], None, [line], []))
  }

  const UrlTypeError := "TypeError: unsupported operand type(s) for +: 'bool' and 'str'"

  /** `log_event(mode, log_id, **params)`. `logId` is the `log_id` argument,
      `selfIds` the ids of the recordset it is called on, `newId` the id the
      ORM gives a new `nc.sync.log`, `dav` the CalDAV client, `odoos` the
      users with calendar sync and `ncs` what `get_users` returns. Adding the
      DAV path to a server URL that is unset or stored empty, which
      `get_param` reads as `False`, raises before anything else. */
  function LogEvent(
    mode: string, logId: Option<int>, p: LogParams, cfg: Config, selfIds: seq<int>, newId: int,
    dav: DavClient, odoos: seq<OdooUser>, ncs: seq<NcUser>): (r: Result<LogResult>)
    ensures !Truthy(GetParam(cfg, UrlKey)) ==> r == Failure(UrlTypeError)
    ensures Truthy(GetParam(cfg, UrlKey)) && mode == "pre_sync" ==>
              var ncUrl := cfg[UrlKey] + DavPath;
              match ConnectionTest(cfg, ncUrl, dav)
              case Failure(e) => r == Failure(e)
              case Success(test) => r == PreSync(cfg, ncUrl, newId, test, odoos, ncs)
    ensures Truthy(GetParam(cfg, UrlKey)) && mode != "pre_sync" ==> r == OtherModes(mode, logId, p, selfIds)
  {
    if !Truthy(GetParam(cfg, UrlKey)) then Failure(UrlTypeError)
    else if mode == "pre_sync" then
      var ncUrl := cfg[UrlKey] + DavPath;
      match ConnectionTest(cfg, ncUrl, dav)
      case Failure(e) => Failure(e)
      case Success(test) => PreSync(cfg, ncUrl, newId, test, odoos, ncs)
    else OtherModes(mode, logId, p, selfIds)
  }

  /** `log_event` with `res` bound in both branches of `pre_sync`: with
      calendar sync disabled the call goes on without a connection line. */
  function LogEventFixed(
    mode: string, logId: Option<int>, p: LogParams, cfg: Config, selfIds: seq<int>, newId: int,
    dav: DavClient, odoos: seq<OdooUser>, ncs: seq<NcUser>): (r: Result<LogResult>)
    ensures !Truthy(GetParam(cfg, UrlKey)) ==> r == Failure(UrlTypeError)
    ensures Truthy(GetParam(cfg, UrlKey)) && mode == "pre_sync" ==>
              var ncUrl := cfg[UrlKey] + DavPath;
              match ConnectionTest(cfg, ncUrl, dav)
              case Failure(e) => r == Failure(e)
              case Success(test) => r == PreSyncFixed(cfg, ncUrl, newId, test, odoos, ncs)
    ensures Truthy(GetParam(cfg, UrlKey)) && mode != "pre_sync" ==>
              r == LogEvent(mode, logId, p, cfg, selfIds, newId, dav, odoos, ncs)
  {
    if !Truthy(GetParam(cfg, UrlKey)) then Failure(UrlTypeError)
    else if mode == "pre_sync" then
      var ncUrl := cfg[UrlKey] + DavPath;
      match ConnectionTest(cfg, ncUrl, dav)
      case Failure(e) => Failure(e)
      case Success(test) => PreSyncFixed(cfg, ncUrl, newId, test, odoos, ncs)
    else OtherModes(mode, logId, p, selfIds)
  }

  /** Outside `pre_sync` one line is logged, against the given log or else
      the first record of the recordset; its operation type defaults to
      `read` and its severity to `info`. */
  lemma LogLineDefaults(
    mode: string, logId: Option<int>, p: LogParams, cfg: Config, selfIds: seq<int>, newId: int,
    dav: DavClient, odoos: seq<OdooUser>, ncs: seq<NcUser>)
    requires mode != "pre_sync" && Truthy(GetParam(cfg, UrlKey))
    ensures var r := LogEvent(mode, logId, p, cfg, selfIds, newId, dav, odoos, ncs);
            && (r.Failure? <==> logId.None? && selfIds == [])
            && (r.Success? ==>
                  var l := r.value.lines[0];
                  && r.value.resume && r.value.matched == [] && |r.value.lines| == 1
                  && l.logId == (if logId.Some? then logId.value else selfIds[0])
                  && (p.operationType.None? ==> l.operationType == Str("read"))
                  && (p.operationType.Some? ==> l.operationType == p.operationType.value)
                  && (p.severity.None? ==> l.severity == Str("info"))
                  && (p.severity.Some? ==> l.severity == p.severity.value)
                  && l.description == Description(mode, p))
  {
  }

  /** In `text` mode a given message is the description. */
  lemma TextModeDescription(p: LogParams)
    requires p.message.Some?
    ensures Description("text", p) == Some(p.message.value)
  {
  }

  /** In `error` mode the description is the message, a space and the error
      text, or the error text alone without a message; without an error, or
      with one whose text is empty, no description is set. */
  lemma ErrorModeDescription(p: LogParams)
    ensures p.error.None? ==> Description("error", p).None?
    ensures p.error.Some? && Render(p.error.value) == [] ==> Description("error", p).None?
    ensures p.error.Some? && Render(p.error.value) != [] && p.message.Some? ==>
              Description("error", p) == Some(Str(Render(p.message.value) + " " + Render(p.error.value)))
    ensures p.error.Some? && Render(p.error.value) != [] && p.message.None? ==>
              Description("error", p) == Some(Str(Render(p.error.value)))
  {
    if p.error.Some? {
      assert "" + Render(p.error.value) == Render(p.error.value);
    }
  }

  /** As written, `pre_sync` raises when no server URL reads back; with one,
      it raises whenever calendar sync is disabled, and with sync enabled
      exactly when the connection test raises, or when the test returns a
      principal and some Odoo user has no user name. */
  lemma PreSyncFailure(
    logId: Option<int>, p: LogParams, cfg: Config, selfIds: seq<int>, newId: int,
    dav: DavClient, odoos: seq<OdooUser>, ncs: seq<NcUser>)
    ensures !Truthy(GetParam(cfg, UrlKey)) ==>
              LogEvent("pre_sync", logId, p, cfg, selfIds, newId, dav, odoos, ncs) == Failure(UrlTypeError)
    ensures Truthy(GetParam(cfg, UrlKey)) ==>
            var outcome := dav(cfg[UrlKey] + DavPath, GetParam(cfg, LoginKey), GetParam(cfg, PasswordKey));
            LogEvent("pre_sync", logId, p, cfg, selfIds, newId, dav, odoos, ncs).Failure? <==>
              !Truthy(GetParam(cfg, EnableKey)) || outcome.OtherError? || (outcome.Principal? && !AllNamed(odoos))
  {
  }

  /** As written, with a non-empty server URL, calendar sync enabled, every
      Odoo user named and a connection test that does not raise, `pre_sync`
      succeeds. It creates a `connecting` log for the DAV URL whose lines are
      the start line and the connection line; `resume` is false exactly when the test returns an
      error record; users are compared only while `resume` holds. */
  lemma PreSyncResume(
    logId: Option<int>, p: LogParams, cfg: Config, selfIds: seq<int>, newId: int,
    dav: DavClient, odoos: seq<OdooUser>, ncs: seq<NcUser>)
    requires Truthy(GetParam(cfg, UrlKey)) && Truthy(GetParam(cfg, EnableKey)) && AllNamed(odoos)
    requires !dav(cfg[UrlKey] + DavPath, GetParam(cfg, LoginKey), GetParam(cfg, PasswordKey)).OtherError?
    ensures LogEvent("pre_sync", logId, p, cfg, selfIds, newId, dav, odoos, ncs).Success?
    ensures var r := LogEvent("pre_sync", logId, p, cfg, selfIds, newId, dav, odoos, ncs).value;
            var ncUrl := cfg[UrlKey] + DavPath;
            var test := CheckConnection(dav(ncUrl, GetParam(cfg, LoginKey), GetParam(cfg, PasswordKey)));
            && r.created == Some(SyncLogRecord(newId, ncUrl, GetParam(cfg, BaseUrlKey), "connecting"))
            && r.lines[0].description == Some(Str(StartLine))
            && test.Success? && |r.lines| >= 2
            && r.lines[1] == ConnectionLine(newId, ncUrl, GetParam(cfg, LoginKey), test.value)
            && (r.resume <==> !test.value.SyncError?)
            && (r.resume ==> r.matched == CheckAndLogUsers(odoos, ncs, newId).value.matched)
            && (!r.resume ==> r.matched == [] && r.links == [])
  {
  }

  /** A store with only the server URL set: as written, `pre_sync` raises on
      the unbound `res` even with no users to compare, where the corrected
      branch resumes with the start line alone. */
  lemma PreSyncDisabledCounterexample(logId: Option<int>, p: LogParams, selfIds: seq<int>, newId: int, dav: DavClient)
    ensures var cfg := map[UrlKey := "https://nc.example"];
            && LogEvent("pre_sync", logId, p, cfg, selfIds, newId, dav, [], []) == Failure(UnboundRes)
            && LogEventFixed("pre_sync", logId, p, cfg, selfIds, newId, dav, [], []).Success?
            && LogEventFixed("pre_sync", logId, p, cfg, selfIds, newId, dav, [], []).value.resume
  {
    KeysDistinct();
    var cfg := map[UrlKey := "https://nc.example"];
    assert GetParam(cfg, EnableKey) == Bool(false);
  }

  /** With `res` bound in both branches, `pre_sync` still raises when no
      server URL reads back; with one, it raises exactly when the enabled
      connection test raises, or when the users are compared and some Odoo
      user has no user name. */
  lemma PreSyncFixedFailure(
    logId: Option<int>, p: LogParams, cfg: Config, selfIds: seq<int>, newId: int,
    dav: DavClient, odoos: seq<OdooUser>, ncs: seq<NcUser>)
    ensures !Truthy(GetParam(cfg, UrlKey)) ==>
              LogEventFixed("pre_sync", logId, p, cfg, selfIds, newId, dav, odoos, ncs) == Failure(UrlTypeError)
    ensures Truthy(GetParam(cfg, UrlKey)) ==>
            var outcome := dav(cfg[UrlKey] + DavPath, GetParam(cfg, LoginKey), GetParam(cfg, PasswordKey));
            var enabled := Truthy(GetParam(cfg, EnableKey));
            LogEventFixed("pre_sync", logId, p, cfg, selfIds, newId, dav, odoos, ncs).Failure? <==>
              (enabled && outcome.OtherError?)
              || (!(enabled && (outcome.AuthorizationError? || outcome.PropfindError? || outcome.NetworkError?))
                  && !AllNamed(odoos))
  {
  }

  /** With `res` bound in both branches, a non-empty server URL, every Odoo user
      named and a connection test that does not raise, `pre_sync` succeeds,
      whether or not calendar sync is enabled. The connection line is logged
      exactly when sync is enabled, and `resume` is false exactly when the
      enabled test returns an error record. */
  lemma PreSyncFixedResume(
    logId: Option<int>, p: LogParams, cfg: Config, selfIds: seq<int>, newId: int,
    dav: DavClient, odoos: seq<OdooUser>, ncs: seq<NcUser>)
    requires Truthy(GetParam(cfg, UrlKey)) && AllNamed(odoos)
    requires !dav(cfg[UrlKey] + DavPath, GetParam(cfg, LoginKey), GetParam(cfg, PasswordKey)).OtherError?
    ensures LogEventFixed("pre_sync", logId, p, cfg, selfIds, newId, dav, odoos, ncs).Success?
    ensures var r := LogEventFixed("pre_sync", logId, p, cfg, selfIds, newId, dav, odoos, ncs).value;
            var ncUrl := cfg[UrlKey] + DavPath;
            var enabled := Truthy(GetParam(cfg, EnableKey));
            var test := CheckConnection(dav(ncUrl, GetParam(cfg, LoginKey), GetParam(cfg, PasswordKey)));
            && r.created == Some(SyncLogRecord(newId, ncUrl, GetParam(cfg, BaseUrlKey), "connecting"))
            && r.lines[0].description == Some(Str(StartLine))
            && (enabled ==> test.Success? && |r.lines| >= 2
                            && r.lines[1] == ConnectionLine(newId, ncUrl, GetParam(cfg, LoginKey), test.value))
            && (!enabled ==> r.lines == Opening(cfg, ncUrl, newId, None) + CheckAndLogUsers(odoos, ncs, newId).value.lines)
            && (r.resume <==> !(enabled && test.value.SyncError?))
            && (r.resume ==> r.matched == CheckAndLogUsers(odoos, ncs, newId).value.matched)
            && (!r.resume ==> r.matched == [] && r.links == [])
  {
  }
}

=== FILE: test_data.dfy ===
/** The `nextcloud.sync` test-data wizard: it generates hourly Odoo events and
    pushes translated Odoo events to a Nextcloud calendar, one `save_event`
    call per record. Instants are naive date-times counted in seconds from
    1970-01-01 00:00:00. */
module TestData {
  import opened Wrappers
  import opened Values
  import opened Text
  import opened Seqs
  import opened Caldav

  // ---------------------------------------------------------------------
  // create_odoo_events

  /** 2023-01-01 00:00:00. */
  const FirstStart := 1672531200
  const Hour := 3600

  /** The `vals` of one generated `calendar.event`: its `name`, `start_date`,
      `stop_date` and `allday` keys, the dates as seconds since the epoch. */
  datatype EventVals = EventVals(name: string, startDate: int, stopDate: int, allday: bool)

  /** The `n`-th generated event: `"Event n"`, one hour long, starting
      `n - 1` hours after the first start. */
  function HourlyEvent(n: nat): EventVals
    requires n >= 1
  {
    EventVals("Event " + NatToString(n), FirstStart + (n - 1) * Hour, FirstStart + n * Hour, false)
  }

  /** Generated events follow each other without a gap and never overlap. */
  lemma HourlyEventsBackToBack(i: nat, j: nat)
    requires 1 <= i < j
    ensures HourlyEvent(i).stopDate == HourlyEvent(i).startDate + Hour
    ensures HourlyEvent(i).stopDate <= HourlyEvent(j).startDate
    ensures j == i + 1 ==> HourlyEvent(i).stopDate == HourlyEvent(j).startDate
  {
  }

  /** Generated events have pairwise distinct names. */
  lemma HourlyEventNamesDistinct(i: nat, j: nat)
    requires 1 <= i && 1 <= j && i != j
    ensures HourlyEvent(i).name != HourlyEvent(j).name
  {
    var a := HourlyEvent(i).name;
    var b := HourlyEvent(j).name;
    assert a[6..] == NatToString(i) && b[6..] == NatToString(j);
    DecimalRoundTrip(i);
    DecimalRoundTrip(j);
  }

  /** The loop of `create_odoo_events`: `count` values (none when `count` is
      not positive), start and end moving on by an hour each round. */
  method GenerateHourly(count: int) returns (events: seq<EventVals>)
    ensures |events| == if count < 0 then 0 else count
    ensures forall i :: 0 <= i < |events| ==> events[i] == HourlyEvent(i + 1)
  {
    var start := FirstStart;
    var end := FirstStart + Hour;
    events := [];
    var n := 1;
    while n <= count
      invariant 1 <= n && (count >= 1 ==> n <= count + 1) && (count < 1 ==> n == 1)
      invariant |events| == n - 1
      invariant start == FirstStart + (n - 1) * Hour && end == start + Hour
      invariant forall i :: 0 <= i < |events| ==> events[i] == HourlyEvent(i + 1)
    {
      events := events + [EventVals("Event " + NatToString(n), start, end, false)];
      start := start + Hour;
      end := end + Hour;
      n := n + 1;
    }
  }

  /** The head of a result log: `"Created <count> <what> event records"`.
      The digits after `"Created "`, up to the next space, read back as
      `count`. */
  function CreatedLog(count: nat, what: string): (r: string)
    ensures |r| > 8 + |NatToString(count)|
    ensures r[..8] == "Created " && r[8 + |NatToString(count)|] == ' '
    ensures IsDigits(r[8..8 + |NatToString(count)|])
    ensures DigitsValue(r[8..8 + |NatToString(count)|]) == count
  {
    var r := "Created " + NatToString(count) + " " + what + " event records";
    assert r[8..8 + |NatToString(count)|] == NatToString(count);
    DecimalRoundTrip(count);
    r
  }

  /** Different counts give different logs. */
  lemma CreatedLogInjective(a: nat, b: nat, what: string)
    requires CreatedLog(a, what) == CreatedLog(b, what)
    ensures a == b
  {
    var la := |NatToString(a)|;
    var lb := |NatToString(b)|;
    assert la == lb;
    assert NatToString(a) == CreatedLog(a, what)[8..8 + la];
  }

  /** The result log of `create_odoo_events` as written: it names the loop
      variable `n`, which is never bound when `count` is not positive. */
  function OdooEventsLog(count: int): (r: Result<string>)
    ensures r.Failure? <==> count <= 0
    ensures r.Success? ==> r.value == CreatedLog(count, "Odoo")
  {
    if count <= 0 then Failure("UnboundLocalError: local variable 'n' referenced before assignment")
    else Success(CreatedLog(count, "Odoo"))
  }

  /** With no events to create the written log raises, where a log of the
      events created would start `"Created 0 "`. */
  lemma OdooEventsLogCounterexample()
    ensures OdooEventsLog(0).Failure?
    ensures CreatedLog(0, "Odoo")[..10] == "Created 0 "
  {
    assert NatToString(0) == "0";
  }

  /** What `create_odoo_events` passes to `create` and logs. */
  datatype OdooBatch = OdooBatch(events: seq<EventVals>, log: string)

  /** `create_odoo_events` as written. */
  method CreateOdooEvents(count: int) returns (r: Result<OdooBatch>)
    ensures r.Failure? <==> count <= 0
    ensures r.Success? ==> |r.value.events| == count
    ensures r.Success? ==> forall i :: 0 <= i < count ==> r.value.events[i] == HourlyEvent(i + 1)
    ensures r.Success? ==> r.value.log == CreatedLog(|r.value.events|, "Odoo")
  {
    var events := GenerateHourly(count);
    var log := OdooEventsLog(count);
    if log.Failure? {
      return Failure(log.error);
    }
    return Success(OdooBatch(events, log.value));
  }

  /** `create_odoo_events` with the log fixed: never fails. */
  method CreateOdooEventsFixed(count: int) returns (r: OdooBatch)
    ensures |r.events| == if count < 0 then 0 else count
    ensures forall i :: 0 <= i < |r.events| ==> r.events[i] == HourlyEvent(i + 1)
    ensures r.log == CreatedLog(|r.events|, "Odoo")
  {
    var events := GenerateHourly(count);
    return OdooBatch(events, CreatedLog(|events|, "Odoo"));
  }

  // ---------------------------------------------------------------------
  // create_next_cloud_event / create_nextcloud_events

  /** The keys handed on to `save_event`. */
  const ForwardedKeys := {"summary", "dtstart", "dtend"}

  /** The keyword arguments for `save_event`: the record restricted to the
      forwarded keys. */
  function SaveFilter(record: Dict): (r: Dict)
    ensures r.Keys == record.Keys * ForwardedKeys
    ensures forall k :: k in r ==> r[k] == record[k]
  {
    map k | k in record && k in ForwardedKeys :: record[k]
  }

  /** Filtering an already filtered record changes nothing. */
  lemma SaveFilterIdempotent(record: Dict)
    ensures SaveFilter(SaveFilter(record)) == SaveFilter(record)
  {
  }

  /** For a translated Odoo event, `save_event` gets the name as summary and
      the local start and stop, each when set, and nothing else. */
  lemma ForwardedEvent(e: Dict, toLocal: Value -> Value)
    ensures var ev := SaveFilter(TranslateRecord(e, toLocal));
            && ("summary" in ev <==> Truthy(Get(e, "name")))
            && ("summary" in ev ==> ev["summary"] == Get(e, "name"))
            && ("dtstart" in ev <==> Truthy(Get(e, "start")))
            && ("dtstart" in ev ==> ev["dtstart"] == toLocal(Get(e, "start")))
            && ("dtend" in ev <==> Truthy(Get(e, "stop")))
            && ("dtend" in ev ==> ev["dtend"] == toLocal(Get(e, "stop")))
  {
    var t := TranslateRecord(e, toLocal);
    TranslateRecordSpec(e, toLocal);
    FieldLookups();
    assert "summary" in t <==> Sent(e, "name");
    assert "summary" in t ==> t["summary"] == Outgoing(e, "name", toLocal);
    assert "dtstart" in t <==> Sent(e, "start");
    assert "dtend" in t <==> Sent(e, "stop");
  }

  /** The outcome of one `save_event` call. */
  datatype SaveOutcome = Saved(url: string) | SaveFailed(message: string)

  /** The saving loop: every record is tried; a failed save is skipped and
      the loop goes on. `saved` lists the events the calendar accepted. */
  method SaveAll(records: seq<Dict>, save: Dict -> SaveOutcome) returns (saved: seq<Dict>)
    ensures saved == Filter(Map(records, SaveFilter), (ev: Dict) => save(ev).Saved?)
    ensures forall i :: 0 <= i < |records| ==>
              (SaveFilter(records[i]) in saved <==> save(SaveFilter(records[i])).Saved?)
  {
    saved := [];
    var i := 0;
    while i < |records|
      invariant 0 <= i <= |records|
      invariant saved == Filter(Map(records[..i], SaveFilter), (ev: Dict) => save(ev).Saved?)
    {
      var ev := SaveFilter(records[i]);
      var outcome := save(ev);
      assert Map(records[..i + 1], SaveFilter) == Map(records[..i], SaveFilter) + [ev];
      if outcome.Saved? {
        saved := saved + [ev];
      }
      i := i + 1;
    }
    assert records[..i] == records;
    forall k | 0 <= k < |records|
      ensures SaveFilter(records[k]) in Map(records, SaveFilter)
    {
      assert Map(records, SaveFilter)[k] == SaveFilter(records[k]);
    }
  }

  /** What opening the wizard's calendar did: `DAVClient` on the wizard's
      host, `principal()` and `calendar(name="Personal")` all returned, or
      one of them raised with the given text. */
  datatype CalendarOpen = Opened | OpenFailed(message: string)

  /** The events the calendar accepts from `rows`: translated, filtered for
      `save_event`, and kept when their save succeeds. */
  function SavedEvents(rows: seq<Dict>, lt: LocalTime, save: Dict -> SaveOutcome): seq<Dict> {
    Filter(Map(Map(rows, (e: Dict) => TranslateRecord(e, ToLocal(lt))), SaveFilter), (ev: Dict) => save(ev).Saved?)
  }

  /** `create_next_cloud_event(calendar_events)`: translate, open the
      calendar, then save. A translation that raises comes first; a calendar
      that cannot be opened raises before any save. */
  method CreateNextCloudEvent(rows: seq<Dict>, lt: LocalTime, open: CalendarOpen, save: Dict -> SaveOutcome)
    returns (r: Result<seq<Dict>>)
    ensures r.Failure? <==> ZoneFailsFor(rows, lt) || open.OpenFailed?
    ensures ZoneFailsFor(rows, lt) ==> r == Failure(LocalZone(lt).error)
    ensures !ZoneFailsFor(rows, lt) && open.OpenFailed? ==> r == Failure(open.message)
    ensures r.Success? ==> r.value == SavedEvents(rows, lt, save)
  {
    var records := SetCaldavRecord(rows, lt);
    if records.Failure? {
      return Failure(records.error);
    }
    if open.OpenFailed? {
      return Failure(open.message);
    }
    assert records.value == Map(rows, (e: Dict) => TranslateRecord(e, ToLocal(lt)));
    var saved := SaveAll(records.value, save);
    return Success(saved);
  }

  /** The saved events and the result log of a wizard run. */
  datatype NextcloudBatch = NextcloudBatch(saved: seq<Dict>, log: string)

  /** `create_nextcloud_events` as written: it raises as
      `create_next_cloud_event` does, and otherwise its log counts the
      translated records whether or not they saved. */
  method CreateNextcloudEvents(rows: seq<Dict>, lt: LocalTime, open: CalendarOpen, save: Dict -> SaveOutcome)
    returns (r: Result<NextcloudBatch>)
    ensures r.Failure? <==> ZoneFailsFor(rows, lt) || open.OpenFailed?
    ensures r.Success? ==> r.value.saved == SavedEvents(rows, lt, save) && |r.value.saved| <= |rows|
    ensures r.Success? ==> r.value.log == CreatedLog(|rows|, "Nextcloud")
  {
    var saved := CreateNextCloudEvent(rows, lt, open, save);
    if saved.Failure? {
      return Failure(saved.error);
    }
    return Success(NextcloudBatch(saved.value, CreatedLog(|rows|, "Nextcloud")));
  }

  /** `create_nextcloud_events` with the log counting the saved events. */
  method CreateNextcloudEventsFixed(rows: seq<Dict>, lt: LocalTime, open: CalendarOpen, save: Dict -> SaveOutcome)
    returns (r: Result<NextcloudBatch>)
    ensures r.Failure? <==> ZoneFailsFor(rows, lt) || open.OpenFailed?
    ensures r.Success? ==> r.value.saved == SavedEvents(rows, lt, save)
    ensures r.Success? ==> r.value.log == CreatedLog(|r.value.saved|, "Nextcloud")
  {
    var saved := CreateNextCloudEvent(rows, lt, open, save);
    if saved.Failure? {
      return Failure(saved.error);
    }
    return Success(NextcloudBatch(saved.value, CreatedLog(|saved.value|, "Nextcloud")));
  }

  /** One record whose save fails: the written log counts one event, while
      none was saved. */
  lemma NextcloudLogCounterexample()
    ensures var records: seq<Dict> := [map["summary" := Str("Standup")]];
            var save := (ev: Dict) => SaveFailed("403 Forbidden");
            && Filter(Map(records, SaveFilter), (ev: Dict) => save(ev).Saved?) == []
            && CreatedLog(|records|, "Nextcloud") != CreatedLog(0, "Nextcloud")
  {
    var records: seq<Dict> := [map["summary" := Str("Standup")]];
    var save := (ev: Dict) => SaveFailed("403 Forbidden");
    if CreatedLog(1, "Nextcloud") == CreatedLog(0, "Nextcloud") {
      CreatedLogInjective(1, 0, "Nextcloud");
    }
  }
}

=== FILE: text.dfy ===
/** String helpers that stand for the Python string methods the add-ons use:
    `str.strip("/")`, `str.lower()`, `", ".join(...)` and `%s` of an integer. */
module Text {

  predicate AllSlashes(s: string) {
    forall k :: 0 <= k < |s| ==> s[k] == '/'
  }

  /** Neither the first nor the last character is a slash. */
  predicate NoEdgeSlash(s: string) {
    s == [] || (s[0] != '/' && s[|s| - 1] != '/')
  }

  /** `s.lstrip("/")`: the suffix of `s` left after its leading slashes. */
  function TrimStart(s: string): (r: string)
    ensures |r| <= |s| && r == s[|s| - |r|..]
    ensures AllSlashes(s[..|s| - |r|])
    ensures r == [] || r[0] != '/'
  {
    if s != [] && s[0] == '/' then
      var r := TrimStart(s[1..]);
      assert s[..|s| - |r|] == [s[0]] + s[1..][..|s| - 1 - |r|];
      r
    else s
  }

  /** `s.rstrip("/")`: the prefix of `s` left before its trailing slashes. */
  function TrimEnd(s: string): (r: string)
    ensures |r| <= |s| && r == s[..|r|]
    ensures AllSlashes(s[|r|..])
    ensures r == [] || r[|r| - 1] != '/'
  {
    if s != [] && s[|s| - 1] == '/' then TrimEnd(s[..|s| - 1]) else s
  }

  /** `s.strip("/")`: `s` without every leading and every trailing slash. */
  function StripSlashes(s: string): (r: string)
    ensures NoEdgeSlash(r)
    ensures |r| <= |s|
  {
    TrimEnd(TrimStart(s))
  }

  /** `m` sits in `s` at offset `i` with nothing but slashes around it. */
  ghost predicate FramedBySlashes(s: string, i: int, m: string) {
    0 <= i <= |s| - |m| && s[i..i + |m|] == m && AllSlashes(s[..i]) && AllSlashes(s[i + |m|..])
  }

  /** The stripped text is a slice of the original framed by slashes only. */
  lemma StripSlashesIsSlice(s: string)
    ensures exists i :: FramedBySlashes(s, i, StripSlashes(s))
  {
    var t := TrimStart(s);
    var r := TrimEnd(t);
    var i := |s| - |t|;
    assert t == s[i..];
    assert s[i..i + |r|] == t[..|r|];
    assert s[i + |r|..] == t[|r|..];
    assert r == StripSlashes(s);
    assert AllSlashes(s[..i]) && AllSlashes(s[i + |r|..]);
    assert FramedBySlashes(s, i, r);
  }

  lemma {:induction false} TrimStartPadded(p: string, t: string)
    requires AllSlashes(p)
    requires t == [] || t[0] != '/'
    ensures TrimStart(p + t) == t
    decreases |p|
  {
    if p != [] {
      assert (p + t)[1..] == p[1..] + t;
      TrimStartPadded(p[1..], t);
    }
  }

  lemma {:induction false} TrimEndPadded(t: string, q: string)
    requires AllSlashes(q)
    requires t == [] || t[|t| - 1] != '/'
    ensures TrimEnd(t + q) == t
    decreases |q|
  {
    if q != [] {
      assert (t + q)[..|t + q| - 1] == t + q[..|q| - 1];
      TrimEndPadded(t, q[..|q| - 1]);
    }
  }

  lemma {:induction false} TrimStartAllSlashes(s: string)
    requires AllSlashes(s)
    ensures TrimStart(s) == []
    decreases |s|
  {
    if s != [] {
      TrimStartAllSlashes(s[1..]);
    }
  }

  /** Stripping removes exactly the slash padding: whatever slashes surround a
      text without edge slashes, `strip("/")` gives that text back. */
  lemma {:induction false} StripPadded(p: string, m: string, q: string)
    requires AllSlashes(p) && AllSlashes(q) && NoEdgeSlash(m)
    ensures StripSlashes(p + m + q) == m
  {
    if m == [] {
      var s := p + m + q;
      assert AllSlashes(s) by {
        forall k | 0 <= k < |s| ensures s[k] == '/' {
          if k < |p| { assert s[k] == p[k]; } else { assert s[k] == q[k - |p|]; }
        }
      }
      TrimStartAllSlashes(s);
    } else {
      assert p + m + q == p + (m + q);
      TrimStartPadded(p, m + q);
      TrimEndPadded(m, q);
    }
  }

  /** `strip("/")` leaves nothing exactly when the text is slashes only. */
  lemma StripEmptyIff(s: string)
    ensures StripSlashes(s) == [] <==> AllSlashes(s)
  {
    if AllSlashes(s) {
      TrimStartAllSlashes(s);
    }
  }

  /** Stripping an already stripped URL changes nothing. */
  lemma StripIdempotent(s: string)
    ensures StripSlashes(StripSlashes(s)) == StripSlashes(s)
  {
    var r := StripSlashes(s);
    StripPadded([], r, []);
    assert [] + r + [] == r;
  }

  function LowerChar(c: char): char {
    if 'A' <= c <= 'Z' then (c as int + 32) as char else c
  }

  /** `s.lower()` on ASCII letters. */
  function Lower(s: string): (r: string)
    ensures |r| == |s|
    ensures forall i :: 0 <= i < |s| ==> r[i] == LowerChar(s[i])
  {
    seq(|s|, i requires 0 <= i < |s| => LowerChar(s[i]))
  }

  /** `sep.join(parts)`. */
  function Join(sep: string, parts: seq<string>): string {
    if |parts| == 0 then ""
    else if |parts| == 1 then parts[0]
    else parts[0] + sep + Join(sep, parts[1..])
  }

  predicate IsDigits(s: string) {
    forall i :: 0 <= i < |s| ==> '0' <= s[i] <= '9'
  }

  function DigitChar(d: nat): (c: char)
    requires d < 10
    ensures '0' <= c <= '9'
  {
    ('0' as int + d) as char
  }

  /** Decimal text of a natural number, as `%s` or an f-string renders it. */
  function NatToString(n: nat): (r: string)
    ensures |r| >= 1 && IsDigits(r)
    decreases n
  {
    if n < 10 then [DigitChar(n)] else NatToString(n / 10) + [DigitChar(n % 10)]
  }

  /** Decimal text of an integer, with a leading minus sign when negative. */
  function IntToString(i: int): string {
    if i < 0 then "-" + NatToString(-i) else NatToString(i)
  }

  /** The number a run of decimal digits denotes. */
  function DigitsValue(s: string): nat
    requires IsDigits(s)
  {
    if s == [] then 0
    else DigitsValue(s[..|s| - 1]) * 10 + (s[|s| - 1] as int - '0' as int)
  }

  /** Reading the rendered digits back gives the number that was rendered. */
  lemma {:induction false} DecimalRoundTrip(n: nat)
    ensures DigitsValue(NatToString(n)) == n
    decreases n
  {
    if n >= 10 {
      DecimalRoundTrip(n / 10);
      var s := NatToString(n);
      assert s[..|s| - 1] == NatToString(n / 10);
    }
  }
}

=== FILE: uninstall_hook.dfy ===
/** `uninstall_hook`: drops the `nc_to_delete` terms the add-on put in the
    calendar action's domain, and removes duplicate terms. */
module UninstallHook {
  import opened Wrappers
  import opened Values
  import opened Seqs

  /** A domain element: a `(field, operator, value)` leaf or a prefix
      operator such as `'&'`, `'|'` or `'!'`. */
  datatype Term = Leaf(field: string, op: string, value: Value) | Connective(op: string)

  /** The calendar action's stored domain as `ast.literal_eval(action.domain
      or "{}")` reads it: unset or empty text, which reads as the empty
      `{}`; text `literal_eval` rejects (a name such as `uid`, a call such as
      `context_today()`, malformed text), with the ValueError or SyntaxError
      it raises; or a literal list of terms. */
  datatype StoredDomain = Unset | Unparsable(error: string) | Parsed(terms: seq<Term>)

  const DeletedField := "nc_to_delete"

  /** `x[0]`: the field of a leaf, the first character of an operator (an
      empty operator has none, see `Indexable`). */
  function First(x: Term): string {
    match x
    case Leaf(f, _, _) => f
    case Connective(op) => if op == [] then [] else [op[0]]
  }

  /** The comprehension's test `x[0] != "nc_to_delete"`. */
  predicate Kept(x: Term) {
    First(x) != DeletedField
  }

  /** A term with a first element to look at. */
  predicate Indexable(x: Term) {
    !x.Connective? || x.op != []
  }

  /** A term a Python `set` accepts. */
  predicate TermHashable(x: Term) {
    !x.Leaf? || Hashable(x.value)
  }

  predicate NoDuplicates(xs: seq<Term>) {
    forall i, j :: 0 <= i < j < |xs| ==> xs[i] != xs[j]
  }

  /** One order in which `list(set(xs))` may list the distinct terms: first
      occurrences, in order. */
  function Dedup(xs: seq<Term>): (r: seq<Term>)
    ensures NoDuplicates(r)
    ensures forall x :: x in r <==> x in xs
    ensures |r| <= |xs|
    decreases |xs|
  {
    if xs == [] then []
    else
      var rest := Dedup(xs[..|xs| - 1]);
      var last := xs[|xs| - 1];
      if last in rest then rest else rest + [last]
  }

  /** A list without duplicates is its own deduplication. */
  lemma {:induction false} DedupOfDistinct(xs: seq<Term>)
    requires NoDuplicates(xs)
    ensures Dedup(xs) == xs
    decreases |xs|
  {
    if xs != [] {
      var init := xs[..|xs| - 1];
      DedupOfDistinct(init);
      assert xs[|xs| - 1] !in init;
      assert init + [xs[|xs| - 1]] == xs;
    }
  }

  /** The new domain of the calendar action, from its stored domain. Text
      that is not a literal raises while it is read; an empty operator string
      has no first element; a leaf holding a list cannot go into a set. */
  function Uninstall(domain: StoredDomain): (r: Result<seq<Term>>)
    ensures r.Failure? <==>
              || domain.Unparsable?
              || (domain.Parsed? && exists x :: x in domain.terms && (!Indexable(x) || (Kept(x) && !TermHashable(x))))
    ensures domain.Unparsable? ==> r == Failure(domain.error)
    ensures r.Success? ==> NoDuplicates(r.value)
    ensures r.Success? ==> forall x :: x in r.value <==> domain.Parsed? && x in domain.terms && Kept(x)
  {
    match domain
    case Unset => Success([])
    case Unparsable(e) => Failure(e)
    case Parsed(terms) =>
      if exists x :: x in terms && !Indexable(x) then
        Failure("IndexError: string index out of range")
      else
        var kept := Filter(terms, (x: Term) => Kept(x));
        if exists x :: x in kept && !TermHashable(x) then Failure("TypeError: unhashable type: 'list'")
        else Success(Dedup(kept))
  }

  /** No `nc_to_delete` leaf survives; every other leaf of the domain does. */
  lemma UninstallDropsOnlyDeleted(domain: seq<Term>, x: Term)
    requires Uninstall(Parsed(domain)).Success?
    requires x.Leaf? && x in domain
    ensures x in Uninstall(Parsed(domain)).value <==> x.field != DeletedField
  {
  }

  /** An empty or unset domain stays empty. */
  lemma UninstallEmpty()
    ensures Uninstall(Unset) == Success([])
    ensures Uninstall(Parsed([])) == Success([])
  {
  }

  /** Running the hook on its own result gives the same domain back. */
  lemma UninstallIdempotent(domain: StoredDomain)
    requires Uninstall(domain).Success?
    ensures Uninstall(Parsed(Uninstall(domain).value)) == Uninstall(domain)
  {
    var r := Uninstall(domain).value;
    var kept := Filter(r, (x: Term) => Kept(x));
    FilterAll(r, (x: Term) => Kept(x));
    assert kept == r;
    DedupOfDistinct(r);
  }
}

=== FILE: values.dfy ===
/** The Python values the add-ons pass around in dictionaries (ORM `vals`,
    `search_read` rows, contexts), Python truthiness, and the
    `ir.config_parameter` store the settings are kept in. */
module Values {
  import opened Text

  /** `Null` is Python's `None`; `List` stands for list values such as
      many2many id lists. */
  datatype Value = Null | Bool(b: bool) | Int(i: int) | Str(s: string) | List(items: seq<Value>)

  /** Python truthiness: `None`, `False`, `0`, `""` and `[]` are false. */
  predicate Truthy(v: Value) {
    match v
    case Null => false
    case Bool(b) => b
    case Int(i) => i != 0
    case Str(s) => s != []
    case List(xs) => xs != []
  }

  /** Lists cannot be put in a Python `set`. */
  predicate Hashable(v: Value) {
    !v.List?
  }

  type Dict = map<string, Value>

  /** `d.get(k)`: `None` for a missing key. */
  function Get(d: Dict, k: string): Value {
    if k in d then d[k] else Null
  }

  /** `repr(v)`; string escaping is not modelled. */
  function Repr(v: Value): string
    decreases v, 1
  {
    match v
    case Str(s) => "'" + s + "'"
    case _ => Render(v)
  }

  /** `str(v)`, which is also what `"{}".format(v)` and `"%s" % v` produce. */
  function Render(v: Value): string
    decreases v, 0
  {
    match v
    case Null => "None"
    case Bool(b) => if b then "True" else "False"
    case Int(i) => IntToString(i)
    case Str(s) => s
    case List(xs) => "[" + Join(", ", seq(|xs|, i requires 0 <= i < |xs| => Repr(xs[i]))) + "]"
  }

  /** The `ir.config_parameter` table: key to stored text. */
  type Config = map<string, string>

  /** `get_param(key)`: the stored text, or `False` when the key is not set.
      Odoo returns `self._get_param(key) or default`, so an empty stored text
      reads `False` too. */
  function GetParam(cfg: Config, key: string): (r: Value)
    ensures r.Str? || r == Bool(false)
    ensures r.Str? <==> key in cfg && cfg[key] != ""
    ensures r.Str? ==> r.s == cfg[key]
    ensures Truthy(r) <==> r.Str?
  {
    if key in cfg && cfg[key] != "" then Str(cfg[key]) else Bool(false)
  }

  /** `set_param(key, value)`: `False` and `None` remove the parameter, any
      other value is stored as its `str()`, which reads back as `False` when
      it is empty. */
  function SetParam(cfg: Config, key: string, v: Value): (r: Config)
    ensures v == Null || v == Bool(false) ==> key !in r
    ensures v != Null && v != Bool(false) ==> key in r && r[key] == Render(v)
    ensures v == Null || v == Bool(false) || Render(v) == "" ==> GetParam(r, key) == Bool(false)
    ensures v != Null && v != Bool(false) && Render(v) != "" ==> GetParam(r, key) == Str(Render(v))
    ensures forall k :: k != key ==> GetParam(r, k) == GetParam(cfg, k)
  {
    if v == Null || v == Bool(false) then cfg - {key} else cfg[key := Render(v)]
  }
}

/** Keys of the `ir.config_parameter` entries the add-ons read and write. */
module ConfigKeys {
  const UrlKey := "nextcloud_odoo_sync.nextcloud_url"
  const LoginKey := "nextcloud_odoo_sync.nextcloud_login"
  const PasswordKey := "nextcloud_odoo_sync.nextcloud_password"
  const EnableKey := "nextcloud_odoo_sync.enable_calendar_sync"
  const StatusKey := "nextcloud_odoo_sync.nextcloud_connection_status"
  const ErrorKey := "nextcloud_odoo_sync.nextcloud_error"
  const BaseUrlKey := "web.base.url"

  /** The WebDAV endpoint below a server URL. */
  const DavPath := "/remote.php/dav"

  /** The parameter keys are pairwise distinct, so writing one leaves the
      others alone. */
  lemma KeysDistinct()
    ensures UrlKey != LoginKey && UrlKey != PasswordKey && UrlKey != EnableKey
    ensures UrlKey != StatusKey && UrlKey != ErrorKey && UrlKey != BaseUrlKey
    ensures EnableKey != StatusKey && EnableKey != ErrorKey && StatusKey != ErrorKey
    ensures LoginKey != PasswordKey && LoginKey != StatusKey && LoginKey != ErrorKey
    ensures PasswordKey != StatusKey && PasswordKey != ErrorKey
  {
    assert |UrlKey| == 33 && |LoginKey| == 35 && |PasswordKey| == 38 && |EnableKey| == 40;
    assert |StatusKey| == 47 && |ErrorKey| == 35 && |BaseUrlKey| == 12;
    assert LoginKey[30] == 'l' && ErrorKey[30] == 'e';
  }
}

=== FILE: wrappers.dfy ===
/** Failure-compatible wrappers shared by the whole model: `Option` for values
    that may be missing and `Result` for operations that raise in the source. */
module Wrappers {

  datatype Option<+T> = None | Some(value: T) {

    /** The value held by `Some`, or `default` when there is none. */
    function GetOr(default: T): T {
      match this
      case Some(v) => v
      case None => default
    }
  }

  /** `Failure` carries the text of the exception the source would raise. */
  datatype Result<+R> = Success(value: R) | Failure(error: string) {

    predicate IsFailure() {
      Failure?
    }

    function PropagateFailure<U>(): Result<U>
      requires Failure?
    {
      Failure(error)
    }

    function Extract(): R
      requires Success?
    {
      value
    }
  }
}
